=== FILE: README.md ===
# Fresh: authentication and authorization core, in Dafny

Fresh is a hapi/MongoDB API server with users, accounts, admins and admin groups. This project
models the part that decides who may do what:

- the route guards (root-group membership, verified e-mail, not the root user);
- the login throttle over the log of failed attempts;
- the session store and the verdict of the `advanced` auth strategy;
- the login, signup, e-mail verification and password reset flows;
- the self-service, admin and root-only routes that read and change users, accounts, admins,
  admin groups, statuses and sessions.

The document store is the class `Db.Store`. It holds one map per collection (users, accounts,
admins, admin groups, sessions, statuses) and the sequence of auth attempts. Every route is a
method over the store. It returns `Ok(...)` or one of the HTTP errors `NotFound`, `Conflict`,
`BadRequest`, `Forbidden` or `InternalError`, each with the message the client sees. The
handlers' own errors carry the handler's text. A reserved id carries hapi's default reply to
failed parameter validation, 'Invalid request params input'. An exception that is not a
`Boom` error carries hapi's 'An internal server error occurred'. It runs its checks in the
route's order: request validation (the reserved ids), then the `pre` chain, then the handler.
Its `ensures` clauses give the whole new state on every path, so "nothing changes on an error"
is stated everywhere.

Time is an integer `now` in milliseconds. bcrypt is a deterministic one-way `Hash` with a
`Matches` check. Fresh ids and random keys are parameters.

The link between a user and its roles is stored on both sides: `user.roles.account` and
`account.user`, and likewise for admins. `Links.LinkedBothWays` and `Db.Store.Linked` state
that the two sides agree. Creating, renaming, linking, unlinking and changing a username or
password keep that agreement. Deletes break it: `UserAdmin.DeleteBreaksLinks` shows that
removing any linked user other than root breaks the link of that kind. `Db.UniqueLogins` states that usernames and e-mails are unique. Signup,
user creation and both kinds of user update preserve it.

Modules, one per source file or model:

- `Wrappers`: `Option`, `Result`, `Error`.
- `Crypto`: hashing.
- `Names`: `nameAdapter` / `fullName`.
- `Documents`: the documents; role slots; group membership and permissions.
- `Preware`: the guards.
- `Links`: the two-sided link.
- `Db`: the store and the session and user models.
- `Hydrate`: `hydrateRoles`.
- `AuthAttempts`: the throttle.
- `Auth`: the verdict.
- One module per routes file: `Login`, `Signup`, `Sessions`, `Logout`, `SessionAdmin`,
  `AccountAdmin`, `AdminManage`, `UserAdmin`, `Users`, `AdminGroups`, `Statuses`.

## Model

| member | source | states |
|---|---|---|
| Crypto.GenerateKeyHash | server/modules/session/session.spec.js:80-87 | the pair echoes the key, and its hash matches that key and no other |
| Crypto.HashMatches | server/modules/user/user.spec.js:75-83 | comparing a secret with its own hash succeeds |
| Crypto.HashRejectsOthers | server/modules/user/user.spec.js:43-48 | comparing any other secret with the hash fails |
| Names.NameAdapter | server/modules/admin-manage/admin-manage.spec.js:29-42 | one word gives (word, ''); text with a space splits at the first space into first and last |
| Names.FullName | server/modules/admin-manage/admin-manage.spec.js:44-56 | `fullName()` inverts `nameAdapter`: a name whose parts hold no space is split back into the same parts |
| Names.OneWordRoundTrip | server/modules/account/account.spec.js:43-48 | a single word is split into (word, '') and joined back to the same word |
| Names.TwoWordsRoundTrip | server/modules/admin-manage/admin-manage.spec.js:44-56 | 'first last' is split into (first, last) and `fullName` joins it back to the same text |
| Names.AdapterExamples | server/modules/account/account.spec.js:28-55 | the concrete names of the model tests: 'Steve', 'Ren Höek', 'Stan' |
| Documents.NewAccount | server/modules/account/account.spec.js:81-95 | a new account has no user, no notes and an empty status; a one-word name round-trips |
| Documents.NewAdmin | server/modules/admin-manage/admin-manage.spec.js:82-87 | a new admin has no user, no groups and no permissions, so it is a member of no group |
| Documents.CanPlayRole | server/modules/user/user.spec.js:85-103 | `canPlayRole`: a user with no roles plays none |
| Documents.CanPlayRoleScenario | server/modules/user/user.spec.js:85-103 | a user linked only to an account can play 'account' and cannot play 'admin' |
| Documents.IsMemberOf | server/modules/admin-manage/admin-manage.spec.js:82-87 | `isMemberOf`: an admin whose groups are missing is a member of no group |
| Documents.ObjectIdTextExamples | server/modules/session/routes.js:44 | 24 hex digits and 12 characters are accepted as an ObjectId; a short id or a non-hex digit is not |
| Documents.LinkRole | server/modules/user/user.spec.js:172-194 | linking sets its own slot (`canPlayRole` then holds) and leaves the other slot as it was |
| Documents.UnlinkRole | server/modules/user/user.spec.js:172-194 | unlinking clears its own slot (`canPlayRole` then fails) and leaves the other slot as it was |
| Documents.LinkUnlinkScenario | server/modules/user/user.spec.js:172-194 | after both links the user can play both roles; after both unlinks it can play neither |
| Documents.HasPermissionTo | server/modules/admin-manage/admin-manage.spec.js:89-164 | false with no permissions and no groups; an own true grants for an admin in no group; an undisputed group grant grants; no group grant and no own entry refuses |
| Documents.PermissionScenario | server/modules/admin-manage/admin-manage.spec.js:111-164 | the sales/support scenario: granted through support, refused where sales says false, refused for an admin in no group |
| Preware.Normalize | server/preware.js:12-14 | a single group becomes a one-element list; a list is kept |
| Preware.RequireAdminGroup | server/preware.js:16-22 | passes iff the admin role has a group among the required ones; otherwise 403 'Missing required group membership.' |
| Preware.RequireRoot | server/preware.js:16-22 | the root-group guard passes iff the admin role's groups contain 'root' |
| Preware.OneGroupIsListOfOne | server/preware.js:12-14 | a group name and the one-element list with it guard alike |
| Preware.AnyRequiredGroupSuffices | server/preware.spec.js:98-108 | membership in any one of several required groups passes |
| Preware.NoAdminGroupsRefused | server/preware.js:16-21 | no admin role, or no groups, is refused by every group guard |
| Preware.RequireVerifiedUser | server/preware.js:29-41 | refuses exactly the credentials that carry a `verify` record, with 403 'Email is not verified.' |
| Preware.RequireNotRootUser | server/preware.js:45-55 | refuses exactly the username 'root', with 403 'Not permitted for the root user.' |
| Links.AccountUsersUpdate | server/modules/account/admin/routes.js:270-281 | writing one account changes only that account's entry in the account-side view of the link |
| Links.AdminUsersUpdate | server/modules/admin-manage/admin/routes.js:324-335 | writing one admin changes only that admin's entry in the admin-side view of the link |
| Links.LinkConflict | server/modules/account/admin/routes.js:254-264 | no conflict iff the user has no other role of the kind and the role has no other user; the user check comes first, with each message |
| Links.RelinkPasses | server/modules/admin-manage/admin/routes.js:307-317 | re-linking a pair that is already linked passes both checks |
| Links.LinkPreserves | server/modules/account/admin/routes.js:275-278 | writing both sides of a link that passed the checks keeps the two sides consistent |
| Links.UnlinkPreserves | server/modules/account/admin/routes.js:406-409 | clearing both sides of a link keeps them consistent; the linked user exists |
| Links.SameSlotPreserves | server/modules/user/admin/routes.js:282-288 | replacing a user by one with the same link of a kind keeps that kind consistent |
| Links.AddUnlinkedUser | server/modules/user/admin/routes.js:94-100 | adding a user with no link keeps the links consistent |
| Links.AddUnlinkedRole | server/modules/account/admin/routes.js:81-84 | adding a role with no user keeps the links consistent |
| Links.RenamePreserves | server/modules/user/admin/routes.js:201-217 | rewriting the `user.name` a role stores keeps the link |
| Db.NewSession | server/modules/session/session.spec.js:27-32 | the new session belongs to the user, ip and agent given, and stores a hash matching its key and no other |
| Db.FindSessionByCredentials | server/auth.js:19-24 | finds a session iff its id exists and the key matches the stored hash, and then it is that session |
| Db.FreshSessionFound | server/modules/session/session.spec.js:61-78 | the id and key of a fresh session find that session |
| Db.OtherKeyFindsNothing | server/modules/session/session.spec.js:43-59 | a known id with an altered key finds nothing |
| Db.UnknownIdFindsNothing | server/modules/session/session.spec.js:34-41 | an unknown id finds nothing |
| Db.SessionsOf | server/modules/session/routes.js:19-23 | exactly the sessions whose `userId` is the user, unchanged |
| Db.WithoutUserSessions | server/modules/admin-manage/admin/routes.js:213-215 | exactly the sessions of other users remain, unchanged |
| Db.RevokeClearsUser | server/modules/admin-manage/admin/routes.js:329-333 | after revocation the user has no session |
| Db.RevokeSparesOthers | server/modules/user/admin/routes.js:215-219 | revocation leaves every other user's sessions as they were |
| Db.NewUser | server/modules/user/admin/routes.js:96-100 | an active user with the given username and e-mail, no roles, and a hash matching the password |
| Db.IdentityConflict | server/modules/user/admin/routes.js:157-190 | no conflict iff no other user has the username or the e-mail; a taken username wins over a taken e-mail |
| Db.NoConflictKeepsUnique | server/modules/user/routes.js:45-80 | writing a user that passed both checks, under the excluded id or under any id when none was excluded, keeps usernames and e-mails unique |
| Db.WithIdentity | server/modules/user/admin/routes.js:194-200 | only username, e-mail and isActive change; roles, password and tokens are kept |
| Db.Store.Empty | first-time-setup.js:44-52 | the store with every collection cleared, whose links are consistent |
| Db.Store.FirstTimeSetup | first-time-setup.js:54-88 | the root group, the root admin in it and the root user, linked both ways; the root e-mail is stored lower-cased |
| Db.LowerChar | first-time-setup.js:79 | a capital A-Z becomes its small letter; every other character is kept; no capital comes out |
| Db.LowerAscii | first-time-setup.js:79 | ASCII lower-casing, the A-Z part of `toLowerCase()`: same length, no capital A-Z left, every other character kept in place |
| Db.LowerAsciiIdempotent | first-time-setup.js:79 | lower-casing twice equals lower-casing once; text without capitals is unchanged |
| Db.LowerAsciiFoldsCase | first-time-setup.js:79 | two spellings of one address that differ in case are stored alike |
| Db.Store.FindUser | server/modules/login/routes.js:107-108 | returns a user satisfying the query, or nothing only when none does |
| Db.Store.FindUserByCredentials | server/modules/user/user.spec.js:36-59 | a hit matches the login by username or e-mail and the password; an unknown login finds nothing; a unique candidate with the right password is found |
| Db.Store.FindAccountByUsername | server/modules/account/account.spec.js:57-72 | returns an account linked to a user of that name, or nothing only when none is |
| Db.Store.FindAdminByUsername | server/modules/admin-manage/admin-manage.spec.js:65-80 | returns an admin linked to a user of that name, or nothing only when none is |
| Db.Store.SetIdentity | server/modules/user/admin/routes.js:194-217 | the user takes the new identity; one linked account and one linked admin take the new `user.name`; links stay consistent |
| Db.Store.RenameLinkedAccount | server/modules/user/admin/routes.js:216 | `findOneAndUpdate` on `user.id`: one linked account is renamed, or nothing changes when none is linked |
| Db.Store.RenameLinkedAdmin | server/modules/user/admin/routes.js:217 | the same for admins |
| Db.Store.CreateSession | server/modules/session/session.spec.js:27-32 | exactly one session is added under the fresh id, and its id and key find it |
| Db.Store.UpdateLastActive | server/modules/session/session.spec.js:89-102 | only that session's `lastActive` changes |
| Db.Store.DeleteUserSessions | server/modules/user/admin/routes.js:252 | the sessions become those of other users only |
| Hydrate.Loaded | server/modules/user/user.spec.js:105-170 | one entry per present link, of the link's kind, holding the linked document; no links, no entries |
| Hydrate.NoLinksNothingLoaded | server/modules/user/user.spec.js:105-120 | a user without links hydrates to an empty object |
| Hydrate.UserInstance.constructor | server/modules/user/user.spec.js:196-200 | a fresh instance has nothing cached |
| Hydrate.UserInstance.HydrateRoles | server/modules/user/user.spec.js:196-209 | the first call loads and caches; later calls return the cached object |
| Hydrate.HydrateTwice | server/modules/user/user.spec.js:196-209 | two calls return the same object even when the store changed in between |
| AuthAttempts.CountByIp | server/modules/login/auth-attempt.js:26-29 | the windowed ip count never exceeds the log length |
| AuthAttempts.CountByIpAndUser | server/modules/login/auth-attempt.js:26-29 | the (ip, username) count never exceeds the ip count |
| AuthAttempts.AbuseDetected | server/modules/login/auth-attempt.js:18-35 | blocked iff the ip count reaches 50 or the (ip, username) count reaches 7 in the window; ip and username must be non-empty |
| AuthAttempts.CountsAppend | server/modules/login/auth-attempt.js:37-49 | one appended attempt adds one to each count whose filter it passes and nothing to the others |
| AuthAttempts.AppendNeverUnblocks | server/modules/login/auth-attempt.js:26-34 | at a fixed instant, recording an attempt never lifts a block |
| AuthAttempts.StaleAppendChangesNothing | server/modules/login/auth-attempt.js:24-29 | an attempt at or before the window start changes no verdict |
| AuthAttempts.StaleLogCountsNothing | server/modules/login/auth-attempt.js:24-29 | a log with nothing after the window start counts zero |
| AuthAttempts.AgedOutNotBlocked | server/modules/login/auth-attempt.js:24-34 | once every attempt has left the window, nobody is blocked |
| AuthAttempts.AllFromIpCounted | server/modules/login/auth-attempt.js:27 | a log whose every attempt passes the ip filter counts all of them |
| AuthAttempts.AllFromPairCounted | server/modules/login/auth-attempt.js:28 | a log whose every attempt passes the (ip, username) filter counts all of them |
| AuthAttempts.IpLimitBlocksEveryone | server/modules/login/auth-attempt.js:31 | fifty recent failures from an ip block that ip for every username |
| AuthAttempts.PairLimitBlocks | server/modules/login/auth-attempt.js:32 | seven recent failures for an (ip, username) block that pair |
| AuthAttempts.RecordAttempt | server/modules/login/auth-attempt.js:37-49 | exactly one attempt with that ip, username and time is appended |
| Auth.Validate | server/auth.js:17-29 | valid iff a session matches id and key; a valid verdict returns the same credentials and touches only that session's `lastActive`; an invalid one changes nothing |
| Auth.FreshSessionValidates | server/auth.spec.js:90-106 | the id and key of a freshly created session validate |
| Login.LoginCredentials | server/modules/login/routes.js:76-84 | scope is the keys of `user.roles`; the credentials carry the session id and plaintext key and the user |
| Login.LoginCredentialsFailGroupGuards | server/modules/login/routes.js:79-81 | the signed roles carry no group memberships, so every group guard refuses them |
| Login.LoginCredentialsPassVerifiedGuard | server/modules/login/routes.js:79-84 | the signed credentials carry no `verify` record, so the verified guard passes them |
| Login.LoginRoute | server/modules/login/routes.js:29-89 | throttle first with nothing recorded; a failed check records one attempt; a success creates one session for a matching user and records nothing |
| Login.Forgot | server/modules/login/routes.js:103-148 | always 'Success.'; an unknown e-mail changes nothing; a known one gets a reset token for the key, expiring 10000000 ms later |
| Login.Reset | server/modules/login/routes.js:165-211 | no pending reset or a wrong key is 400 with no change; a matching key replaces the password hash and drops the token |
| Login.ForgotThenReset | server/modules/login/routes.js:92-211 | forgot then reset with the mailed key installs the new password and consumes the token |
| Signup.SignupAccount | server/modules/signup/routes.js:61-77 | the new account is linked to the new user's id and username, with no notes and no status |
| Signup.SignupUser | server/modules/signup/routes.js:61-77 | the new user is active, linked to the account under its full name, with a verify token expiring 3600 ms later |
| Signup.SignupRoute | server/modules/signup/routes.js:29-123 | 409 iff username or e-mail is taken, with nothing created; otherwise one account, one user and one session; links and uniqueness kept |
| Signup.FreshPairLinks | server/modules/signup/routes.js:74-77 | creating and linking a fresh account and user keeps both kinds of link consistent |
| Signup.VerifyEmail | server/modules/signup/routes.js:140-169 | no pending verification or a wrong key is 400 with no change; a matching key removes `verify` |
| Signup.ResendEmail | server/modules/signup/routes.js:184-218 | for an authenticated request, always 'Success.'; only a user whose token has expired gets a new one |
| Signup.SignupThenVerify | server/modules/signup/routes.js:55-169 | signing up and verifying with the mailed key in time leaves the user verified |
| Sessions.MySessions | server/modules/session/routes.js:17-23 | exactly the caller's sessions, read-only |
| Sessions.DeleteMySession | server/modules/session/routes.js:33-50 | the current session is 400; an id `ObjectID` rejects is 500 with no change; otherwise only the caller's session with that id goes; no other user's session is removed |
| Logout.LogoutRoute | server/modules/logout/routes.js:17-27 | always 'Success.'; without credentials nothing changes; with them only the current session goes |
| Logout.LogoutInvalidates | server/modules/logout/routes.js:25 | after logout the session's id and key no longer find it |
| SessionAdmin.ListSessions | server/modules/session/admin/routes.js:26-40 | root only; every session, read-only |
| SessionAdmin.GetSession | server/modules/session/admin/routes.js:51-63 | root only; 'Session not found.' on a miss, the session on a hit |
| SessionAdmin.DeleteSession | server/modules/session/admin/routes.js:75-87 | root only; a miss is 404 with no change; a hit removes exactly that session |
| AccountAdmin.GetAccount | server/modules/account/admin/routes.js:55-63 | 'Account not found.' on a miss, the account on a hit |
| AccountAdmin.CreateAccount | server/modules/account/admin/routes.js:81-84 | exactly one new unlinked account; links kept |
| AccountAdmin.AddNote | server/modules/account/admin/routes.js:101-123 | exactly one note is appended to the earlier ones, stamped with the calling admin's id and name; a miss is 404 with no change |
| AccountAdmin.SetStatus | server/modules/account/admin/routes.js:166-173 | the entry becomes the current status and the new last log entry; the earlier log is kept |
| AccountAdmin.SetStatusKeepsCurrentLast | server/modules/account/admin/routes.js:166-173 | after a status is set, the current status equals the last log entry |
| AccountAdmin.SetAccountStatus | server/modules/account/admin/routes.js:140-181 | a missing status, then a missing account, is 404 with no change; otherwise the status is set and logged |
| AccountAdmin.RenameAccount | server/modules/account/admin/routes.js:201-216 | only the name changes; a miss is 404 with no change |
| AccountAdmin.LinkKeepsLinked | server/modules/account/admin/routes.js:270-281 | linking after both checks keeps both kinds of link consistent |
| AccountAdmin.LinkUser | server/modules/account/admin/routes.js:232-281 | account, then user, then the two conflicts, each an error with no change; a named user with no conflict is linked and a conflict is answered as a 409; a success points both sides at each other |
| AccountAdmin.UnlinkKeepsLinked | server/modules/account/admin/routes.js:404-411 | unlinking clears both sides and keeps both kinds of link consistent |
| AccountAdmin.UnlinkUser | server/modules/account/admin/routes.js:372-411 | no user is a no-op success; a missing user is 404; otherwise both sides are cleared; afterwards the account has no user |
| AccountAdmin.DeleteAccount | server/modules/account/admin/routes.js:348-360 | root only; a miss is 404 with no change; a hit removes exactly that account |
| AdminManage.CreateAdmin | server/modules/admin-manage/admin/routes.js:62-68 | root only; exactly one new admin with no user, groups or permissions |
| AdminManage.GetAdmin | server/modules/admin-manage/admin/routes.js:87-99 | root only; 'Admin not found.' on a miss, the admin on a hit |
| AdminManage.RenameAdmin | server/modules/admin-manage/admin/routes.js:113-142 | the root admin's id is 400 first; root only; only the name changes; a miss is 404 |
| AdminManage.DeleteAdmin | server/modules/admin-manage/admin/routes.js:161-173 | root only; a miss is 404 with no change; a hit removes exactly that admin |
| AdminManage.RevokeLinked | server/modules/admin-manage/admin/routes.js:213-215 | with a linked user, that user has no session left and everyone else keeps theirs; with none, nothing changes |
| AdminManage.SetGroups | server/modules/admin-manage/admin/routes.js:187-217 | the root admin's id is 400; root only; the group map is replaced whole and the linked user's sessions are revoked |
| AdminManage.SetPermissions | server/modules/admin-manage/admin/routes.js:231-261 | the root admin's id is 400; root only; the permission map is replaced whole and the linked user's sessions are revoked |
| AdminManage.LinkKeepsLinked | server/modules/admin-manage/admin/routes.js:324-335 | linking after both checks keeps both kinds of link consistent |
| AdminManage.LinkUser | server/modules/admin-manage/admin/routes.js:275-335 | reserved id, root, admin, user, the two conflicts, in that order; a named user with no conflict is linked and a conflict is answered as a 409; a success links both sides and revokes the user's sessions |
| AdminManage.UnlinkKeepsLinked | server/modules/admin-manage/admin/routes.js:389-397 | unlinking clears both sides and keeps both kinds of link consistent |
| AdminManage.UnlinkUser | server/modules/admin-manage/admin/routes.js:349-397 | no user is a no-op success; a missing user is 404; otherwise both sides are cleared and the user's sessions revoked |
| UserAdmin.CreateUser | server/modules/user/admin/routes.js:65-100 | root only; a taken username, then e-mail, is 409; otherwise exactly one new user; uniqueness and links kept |
| UserAdmin.GetUser | server/modules/user/admin/routes.js:119-131 | root only; 'User not found.' on a miss, the user on a hit |
| UserAdmin.UpdateUser | server/modules/user/admin/routes.js:145-221 | the root user's id is 400; root only; an id `ObjectID` rejects is 500 with no change; conflicts (own values allowed) before the 404; a success sets the identity, renames linked roles and revokes the sessions |
| UserAdmin.DeleteUser | server/modules/user/admin/routes.js:235-254 | the root user's id is 400; root only; a hit removes the user and its sessions and no role |
| UserAdmin.DeleteBreaksLinks | server/modules/user/admin/routes.js:235-252 | in every store whose links agree, removing a user other than root that holds a link of some kind breaks that kind |
| UserAdmin.SetPassword | server/modules/user/admin/routes.js:268-294 | the root user's id is 400; root only; only the hash changes, and it matches the new password |
| Users.MyProfile | server/modules/user/routes.js:22-28 | the caller's username, e-mail and roles, read-only |
| Users.UpdateMy | server/modules/user/routes.js:45-108 | root is 403; a username or e-mail held by any user, the caller included, is 409 with no change; otherwise username and e-mail are set and copied into linked roles, with no session revoked; uniqueness and links kept |
| Users.ResubmittedOwnValuesRefused | server/modules/user/routes.js:50-73 | a caller who resubmits their own username gets 'Username already in use.'; one who keeps only their e-mail gets 'Email already in use.' |
| Users.ChangeMyPassword | server/modules/user/routes.js:125-142 | root is 403; otherwise only the caller's hash changes, and it matches the new password |
| AdminGroups.CreateAdminGroup | server/modules/admin-group/admin/routes.js:56-63 | root only; exactly one new group with that name and no permissions |
| AdminGroups.GetAdminGroup | server/modules/admin-group/admin/routes.js:74-86 | root only; 'AdminGroup not found.' on a miss, the group on a hit |
| AdminGroups.RenameAdminGroup | server/modules/admin-group/admin/routes.js:98-124 | 'root' is 400 first; root only; only the name changes; the root group never changes |
| AdminGroups.DeleteAdminGroup | server/modules/admin-group/admin/routes.js:136-153 | 'root' is 400 first; root only; a hit removes exactly that group; the root group is never removed |
| AdminGroups.SetGroupPermissions | server/modules/admin-group/admin/routes.js:165-191 | 'root' is 400 first; root only; the permission map is replaced whole, the name kept |
| Statuses.CreateStatus | server/modules/status/admin/routes.js:57-63 | root only; exactly one new status built from (pivot, name) |
| Statuses.GetStatus | server/modules/status/admin/routes.js:75-87 | root only; 'Status not found.' on a miss, the status on a hit |
| Statuses.RenameStatus | server/modules/status/admin/routes.js:104-122 | root only; only the name changes and the pivot is kept; a miss is 404 with no change |
| Statuses.DeleteStatus | server/modules/status/admin/routes.js:134-146 | root only; a miss is 404 with no change; a hit removes exactly that status |

## Left out

- Pagination of the list routes. `GET /accounts`, `/admins`, `/users`, `/admin-groups` and `/statuses` are not modelled. `SessionAdmin.ListSessions` returns every session rather than one page.
- The hapi `auth.scope` check ('admin', 'account') is left out. Routes that rely on it alone have no guard in the model: `/sessions/my`, `/users/my`, and the account routes other than delete. The JWT signature and its decoding are left out too. A request's credentials are a parameter. Their ids are text, as in a decoded token, so the `$ne` of `PUT /users/my` (user/routes.js:53,69) excludes no stored ObjectId.
- Joi request validation other than the reserved ids is left out. The reserved-id 400 carries hapi's default reply text, since the server sets no `failAction`. Lower-casing usernames and e-mails, the `token()` and `email()` formats, and required fields are not modelled. The reserved-id check is modelled as a 400 that runs before every guard.
- Mail is not modelled. The welcome, verification and reset mails send nothing. The model therefore does not show that a mail failure in `/login/forgot` and `/signup/resend-email` is not caught and ends the request after the token was stored.
- Concurrency: `Promise.all` in the handlers is modelled as its writes in sequence. The un-awaited session delete of `/logout` is modelled as completed.
- bcrypt salt and cost, and the randomness of keys and ObjectIds, are parameters or an opaque digest.
- The account avatar routes (file upload and deletion) are left out.
- Generated ids: the slug ids of statuses and admin groups and the ObjectIds of new documents are parameters. Each is assumed fresh. An insert under an existing slug fails in MongoDB, and that failure is not modelled.
- `durationOfBlocking` is a parameter (`hours`), because the configuration file defines no value for it. With no value, auth-attempt.js:24 computes `Date.now() - undefined * 60 * 60 * 1000`, which is NaN, so the `$gt` bound of both counts is an Invalid Date. What the database then counts is not modelled.
- The user model (user.js) is not part of this model. `findByCredentials` is modelled without any check of `isActive`, so in the model a deactivated user can still log in. The login error message mentions an inactive account, so the source's query may well exclude such users.
- The credentials `/login` signs hold the raw `user.roles`, so `roles.admin` carries no `groups` (`Login.LoginCredentialsFailGroupGuards`). The notes and status routes read `admin._id` and `admin.fullName()` from the credentials. The model takes the id and name of a hydrated admin role for them, and requires that role to be present.
- The verification token expires 3600 after issue, with `Date.now()` in milliseconds. That is 3.6 seconds. The model keeps the constant as written.
- Documents.HasPermissionTo: stated weaker than its body. Where an admin's own entry and a group disagree, or two groups disagree, the answer is left open, because admin-manage.spec.js tests no case where an admin's own entry and a group disagree, and the Admin model that decides it is outside this model.
- Names.NameAdapter: middle names and surrounding spaces are not modelled. Text is split at its first space, so 'Stimpson J Cat' gives ('Stimpson', 'J Cat').
- Hydrate.Loaded: the shape of a missing linked document is not fixed. Its entry holds nothing. `hydrateRoles` lives in user.js, which is outside this model, and user.spec.js:105-170 checks only links whose documents exist.
- Db.Store.FirstTimeSetup: only the ASCII capitals A-Z are lower-cased. JavaScript's `toLowerCase` also folds the capitals of other scripts, which `Db.LowerAscii` leaves as they are.
- Sessions.DeleteMySession: the id is looked up as given. The source converts an accepted id to an ObjectId first, so a 12-character id or upper-case hex digits name the ObjectId they encode. The model does not make that conversion.
- Db.LowerAscii: folds only the ASCII capitals A-Z. `toLowerCase()` also folds the capitals of other scripts.
- Lookups by id through `findById`, `findByIdAndUpdate` and `findByIdAndDelete` on users, accounts, admins and sessions convert the id with `ObjectID` inside the document library, which is outside this model. There an id `ObjectID` rejects throws, and hapi answers 500. The model treats such an id as a miss and answers 404. Only the two routes that convert the id in their own code model the 500: `Sessions.DeleteMySession` and `UserAdmin.UpdateUser`.
- Signup.ResendEmail: the route sets no `auth` option, so it runs under the server's default `advanced` strategy (auth.js:33). A request without a valid token gets 401 before the handler runs. The model takes no credentials and starts at the handler's lookup.
- Users.UpdateMy: credentials whose `user._id` is a stored ObjectId, as test code can inject, would let the caller keep their own values. The model follows the credentials `/login` issues, where the id is text and the caller's own values are refused.

=== FILE: account_admin.dfy ===
/** The admin routes over accounts (server/modules/account/admin/routes.js): get, create,
    notes, status, rename, link and unlink a user, and the root-only delete. */
module AccountAdmin {
  import opened Wrappers
  import opened Names
  import opened Documents
  import opened Links
  import opened Preware
  import opened Db

  const AccountNotFound := "Account not found."

  /** GET /accounts/{id}. */
  method GetAccount(st: Store, id: string) returns (r: Result<Account>)
    ensures id !in st.accounts ==> r == Err(NotFound(AccountNotFound))
    ensures id in st.accounts ==> r == Ok(st.accounts[id])
  {
    if id !in st.accounts {
      return Err(NotFound(AccountNotFound));
    }
    r := Ok(st.accounts[id]);
  }

  /** POST /accounts: one new, unlinked account under the fresh id. */
  method CreateAccount(st: Store, name: string, id: Id) returns (r: Result<Account>)
    requires id !in st.accounts
    modifies st`accounts
    ensures st.accounts == old(st.accounts)[id := NewAccount(name)]
    ensures r == Ok(NewAccount(name))
    ensures old(st.Linked()) ==> st.Linked()
  {
    if old(st.Linked()) {
      AccountUsersUpdate(st.accounts, id, NewAccount(name));
      AddUnlinkedRole(st.users, AccountUsers(st.accounts), AccountKey, id);
    }
    st.accounts := st.accounts[id := NewAccount(name)];
    r := Ok(NewAccount(name));
  }

  /** POST /accounts/{id}/notes: exactly one note, stamped with the calling admin, is
      appended; the earlier notes are kept. */
  method AddNote(st: Store, creds: Credentials, id: string, data: string, now: int) returns (r: Result<Account>)
    requires creds.roles.admin.Some?
    modifies st`accounts
    ensures id !in old(st.accounts) ==> r == Err(NotFound(AccountNotFound)) && st.accounts == old(st.accounts)
    ensures id in old(st.accounts) ==>
              var a := old(st.accounts)[id];
              var note := NoteEntry(data, Stamp(creds.roles.admin.value.id, creds.roles.admin.value.name), now);
              && st.accounts == old(st.accounts)[id := a.(notes := a.notes + [note])]
              && r == Ok(st.accounts[id])
  {
    if id !in st.accounts {
      return Err(NotFound(AccountNotFound));
    }
    var a := st.accounts[id];
    var note := NoteEntry(data, Stamp(creds.roles.admin.value.id, creds.roles.admin.value.name), now);
    st.accounts := st.accounts[id := a.(notes := a.notes + [note])];
    r := Ok(st.accounts[id]);
  }

  /** The entry `/accounts/{id}/status` writes: both the new current status and the new last
      entry of the log. */
  function SetStatus(status: AccountStatus, entry: StatusEntry): (s: AccountStatus)
    ensures s.current == Some(entry)
    ensures |s.log| == |status.log| + 1 && s.log[..|status.log|] == status.log
    ensures s.log[|s.log| - 1] == entry
  {
    AccountStatus(Some(entry), status.log + [entry])
  }

  /** Once a status has been set, the current status is the last entry of the log. */
  ghost predicate CurrentIsLast(status: AccountStatus)
  {
    status.current.Some? ==> |status.log| > 0 && status.current.value == status.log[|status.log| - 1]
  }

  /** Setting a status always leaves the current status equal to the last log entry, whatever
      the history before. */
  lemma SetStatusKeepsCurrentLast(status: AccountStatus, entry: StatusEntry)
    ensures CurrentIsLast(SetStatus(status, entry))
  {
  }

  /** POST /accounts/{id}/status: the status must exist (checked first), then the account. */
  method SetAccountStatus(st: Store, creds: Credentials, id: string, statusId: string, now: int)
    returns (r: Result<Account>)
    requires creds.roles.admin.Some?
    modifies st`accounts
    ensures statusId !in st.statuses ==> r == Err(NotFound(StatusNotFound)) && st.accounts == old(st.accounts)
    ensures statusId in st.statuses && id !in old(st.accounts) ==>
              r == Err(NotFound(AccountNotFound)) && st.accounts == old(st.accounts)
    ensures statusId in st.statuses && id in old(st.accounts) ==>
              var a := old(st.accounts)[id];
              var entry := StatusEntry(statusId, st.statuses[statusId].name, Stamp(creds.roles.admin.value.id, creds.roles.admin.value.name), now);
              && st.accounts == old(st.accounts)[id := a.(status := SetStatus(a.status, entry))]
              && r == Ok(st.accounts[id])
    ensures r.Ok? ==> CurrentIsLast(st.accounts[id].status)
  {
    if statusId !in st.statuses {
      return Err(NotFound(StatusNotFound));
    }
    if id !in st.accounts {
      return Err(NotFound(AccountNotFound));
    }
    var a := st.accounts[id];
    var entry := StatusEntry(statusId, st.statuses[statusId].name, Stamp(creds.roles.admin.value.id, creds.roles.admin.value.name), now);
    st.accounts := st.accounts[id := a.(status := SetStatus(a.status, entry))];
    SetStatusKeepsCurrentLast(a.status, entry);
    r := Ok(st.accounts[id]);
  }

  /** PUT /accounts/{id}: only the name changes. */
  method RenameAccount(st: Store, id: string, name: Name) returns (r: Result<Account>)
    modifies st`accounts
    ensures id !in old(st.accounts) ==> r == Err(NotFound(AccountNotFound)) && st.accounts == old(st.accounts)
    ensures id in old(st.accounts) ==>
              st.accounts == old(st.accounts)[id := old(st.accounts)[id].(name := name)] && r == Ok(st.accounts[id])
    ensures old(st.Linked()) ==> st.Linked()
  {
    if id !in st.accounts {
      return Err(NotFound(AccountNotFound));
    }
    AccountUsersUpdate(st.accounts, id, st.accounts[id].(name := name));
    assert AccountUsers(st.accounts)[id := st.accounts[id].user] == AccountUsers(st.accounts);
    st.accounts := st.accounts[id := st.accounts[id].(name := name)];
    r := Ok(st.accounts[id]);
  }

  /** The user a link request names: `User.findByUsername`. */
  predicate NamedUser(u: User, username: string)
  {
    u.username == username
  }

  /** Linking account `accountId` and user `userId` after both conflict checks passed keeps
      both kinds of link consistent. */
  lemma LinkKeepsLinked(users: map<Id, User>, accounts: map<Id, Account>, admins: map<Id, Admin>,
                        accountId: Id, userId: Id, username: string, roleName: string)
    requires LinkedBothWays(users, AccountUsers(accounts), AccountKey)
    requires LinkedBothWays(users, AdminUsers(admins), AdminKey)
    requires accountId in accounts && userId in users
    requires LinkConflict(users[userId], userId, accounts[accountId].user, accountId, AccountKey).None?
    ensures var users' := users[userId := users[userId].(roles := LinkRole(users[userId].roles, AccountKey, RoleLink(accountId, roleName)))];
            var accounts' := accounts[accountId := accounts[accountId].(user := Some(UserRef(userId, username)))];
            LinkedBothWays(users', AccountUsers(accounts'), AccountKey)
            && LinkedBothWays(users', AdminUsers(admins), AdminKey)
  {
    LinkPreserves(users, AccountUsers(accounts), AccountKey, userId, accountId, username, roleName);
    AccountUsersUpdate(accounts, accountId, accounts[accountId].(user := Some(UserRef(userId, username))));
    SameSlotPreserves(users, AdminUsers(admins), AdminKey, userId,
                      users[userId].(roles := LinkRole(users[userId].roles, AccountKey, RoleLink(accountId, roleName))));
  }

  /** PUT /accounts/{id}/user: the account must exist, then a user with that username; then
      the two conflict checks; then both sides point at each other. */
  method LinkUser(st: Store, id: string, username: string) returns (r: Result<Account>)
    modifies st`accounts, st`users
    ensures id !in old(st.accounts) ==> r == Err(NotFound(AccountNotFound))
    ensures id in old(st.accounts) && (forall u | u in old(st.users) :: !NamedUser(old(st.users)[u], username)) ==>
              r == Err(NotFound(UserNotFound))
    ensures r.Err? ==> st.accounts == old(st.accounts) && st.users == old(st.users)
    ensures r.Err? && r.error.Conflict? ==>
              exists u | u in old(st.users) && NamedUser(old(st.users)[u], username) ::
                Some(r.error) == LinkConflict(old(st.users)[u], u, old(st.accounts)[id].user, id, AccountKey)
    ensures r.Ok? ==>
              id in old(st.accounts)
              && exists u | u in old(st.users) && NamedUser(old(st.users)[u], username) ::
                   && LinkConflict(old(st.users)[u], u, old(st.accounts)[id].user, id, AccountKey).None?
                   && st.accounts == old(st.accounts)[id := old(st.accounts)[id].(user := Some(UserRef(u, username)))]
                   && st.users == old(st.users)[u := old(st.users)[u].(roles := LinkRole(old(st.users)[u].roles, AccountKey,
                                                       RoleLink(id, FullName(old(st.accounts)[id].name))))]
                   && r == Ok(st.accounts[id])
    // a named user with no conflict is linked; a conflict of every named user is answered
    ensures (id in old(st.accounts) && (exists u | u in old(st.users) :: NamedUser(old(st.users)[u], username))
             && forall u | u in old(st.users) && NamedUser(old(st.users)[u], username) ::
                  LinkConflict(old(st.users)[u], u, old(st.accounts)[id].user, id, AccountKey).None?) ==> r.Ok?
    ensures (id in old(st.accounts) && (exists u | u in old(st.users) :: NamedUser(old(st.users)[u], username))
             && forall u | u in old(st.users) && NamedUser(old(st.users)[u], username) ::
                  LinkConflict(old(st.users)[u], u, old(st.accounts)[id].user, id, AccountKey).Some?) ==>
              r.Err? && r.error.Conflict?
    ensures old(st.Linked()) ==> st.Linked()
  {
    if id !in st.accounts {
      return Err(NotFound(AccountNotFound));
    }
    var account := st.accounts[id];
    var found := st.FindUser((u: User) => NamedUser(u, username));
    if found.None? {
      return Err(NotFound(UserNotFound));
    }
    var uid := found.value;
    var user := st.users[uid];
    var conflict := LinkConflict(user, uid, account.user, id, AccountKey);
    if conflict.Some? {
      return Err(conflict.value);
    }
    var roleName := FullName(account.name);
    if old(st.Linked()) {
      LinkKeepsLinked(st.users, st.accounts, st.admins, id, uid, username, roleName);
    }
    st.accounts := st.accounts[id := account.(user := Some(UserRef(uid, username)))];
    st.users := st.users[uid := user.(roles := LinkRole(user.roles, AccountKey, RoleLink(id, roleName)))];
    r := Ok(st.accounts[id]);
  }

  /** Unlinking account `accountId` from its user clears both sides and keeps both kinds of
      link consistent. */
  lemma UnlinkKeepsLinked(users: map<Id, User>, accounts: map<Id, Account>, admins: map<Id, Admin>, accountId: Id)
    requires LinkedBothWays(users, AccountUsers(accounts), AccountKey)
    requires LinkedBothWays(users, AdminUsers(admins), AdminKey)
    requires accountId in accounts && accounts[accountId].user.Some?
    ensures accounts[accountId].user.value.id in users
    ensures var u := accounts[accountId].user.value.id;
            var users' := users[u := users[u].(roles := UnlinkRole(users[u].roles, AccountKey))];
            var accounts' := accounts[accountId := accounts[accountId].(user := None)];
            LinkedBothWays(users', AccountUsers(accounts'), AccountKey)
            && LinkedBothWays(users', AdminUsers(admins), AdminKey)
  {
    UnlinkPreserves(users, AccountUsers(accounts), AccountKey, accountId);
    AccountUsersUpdate(accounts, accountId, accounts[accountId].(user := None));
    var u := accounts[accountId].user.value.id;
    SameSlotPreserves(users, AdminUsers(admins), AdminKey, u, users[u].(roles := UnlinkRole(users[u].roles, AccountKey)));
  }

  /** DELETE /accounts/{id}/user: an account with no user is returned unchanged; otherwise
      its user must exist, and both sides are cleared. Unlinking twice is unlinking once. */
  method UnlinkUser(st: Store, id: string) returns (r: Result<Account>)
    modifies st`accounts, st`users
    ensures id !in old(st.accounts) ==> r == Err(NotFound(AccountNotFound))
    ensures id in old(st.accounts) && old(st.accounts)[id].user.None? ==>
              r == Ok(old(st.accounts)[id])
    ensures id in old(st.accounts) && old(st.accounts)[id].user.Some? && old(st.accounts)[id].user.value.id !in old(st.users) ==>
              r == Err(NotFound(UserNotFound))
    ensures r.Err? || old(st.accounts)[id].user.None? ==> st.accounts == old(st.accounts) && st.users == old(st.users)
    ensures id in old(st.accounts) && old(st.accounts)[id].user.Some? && old(st.accounts)[id].user.value.id in old(st.users) ==>
              var u := old(st.accounts)[id].user.value.id;
              && st.accounts == old(st.accounts)[id := old(st.accounts)[id].(user := None)]
              && st.users == old(st.users)[u := old(st.users)[u].(roles := UnlinkRole(old(st.users)[u].roles, AccountKey))]
              && r == Ok(st.accounts[id])
    ensures r.Ok? ==> st.accounts[id].user.None?
    ensures old(st.Linked()) ==> st.Linked()
  {
    if id !in st.accounts {
      return Err(NotFound(AccountNotFound));
    }
    var account := st.accounts[id];
    if account.user.None? {
      return Ok(account);
    }
    var uid := account.user.value.id;
    if uid !in st.users {
      return Err(NotFound(UserNotFound));
    }
    if old(st.Linked()) {
      UnlinkKeepsLinked(st.users, st.accounts, st.admins, id);
    }
    st.accounts := st.accounts[id := account.(user := None)];
    st.users := st.users[uid := st.users[uid].(roles := UnlinkRole(st.users[uid].roles, AccountKey))];
    r := Ok(st.accounts[id]);
  }

  /** DELETE /accounts/{id}: root-group admins only; exactly that account goes. Its user
      keeps its link to the deleted account. */
  method DeleteAccount(st: Store, creds: Credentials, id: string) returns (r: Result<string>)
    modifies st`accounts
    ensures RequireRoot(creds).Stop? ==> r == Err(Forbidden(MissingGroup)) && st.accounts == old(st.accounts)
    ensures RequireRoot(creds).Continue? && id !in old(st.accounts) ==>
              r == Err(NotFound(AccountNotFound)) && st.accounts == old(st.accounts)
    ensures RequireRoot(creds).Continue? && id in old(st.accounts) ==>
              r == Ok(Success) && st.accounts == old(st.accounts) - {id}
  {
    var gate := RequireRoot(creds);
    if gate.Stop? {
      return Err(gate.error);
    }
    if id !in st.accounts {
      return Err(NotFound(AccountNotFound));
    }
    st.accounts := st.accounts - {id};
    r := Ok(Success);
  }
}

=== FILE: admin_groups.dfy ===
/** The root-only admin-group routes (server/modules/admin-group/admin/routes.js): create,
    get, rename, delete and replace permissions. Request validation refuses the id of the
    root group on rename, delete and permissions before the guard runs, so no route can
    change or remove the root group. */
module AdminGroups {
  import opened Wrappers
  import opened Documents
  import opened Preware
  import opened Db

  const AdminGroupNotFound := "AdminGroup not found."

  /** POST /admin-groups: one new group with that name and no permissions, under the id the
      model derives from the name. */
  method CreateAdminGroup(st: Store, creds: Credentials, name: string, id: Id) returns (r: Result<AdminGroup>)
    requires id !in st.adminGroups
    modifies st`adminGroups
    ensures RequireRoot(creds).Stop? ==> r == Err(Forbidden(MissingGroup)) && st.adminGroups == old(st.adminGroups)
    ensures RequireRoot(creds).Continue? ==>
              r == Ok(AdminGroup(name, map[])) && st.adminGroups == old(st.adminGroups)[id := AdminGroup(name, map[])]
    ensures RootGroupId in old(st.adminGroups) ==> st.adminGroups[RootGroupId] == old(st.adminGroups)[RootGroupId]
  {
    var gate := RequireRoot(creds);
    if gate.Stop? {
      return Err(gate.error);
    }
    st.adminGroups := st.adminGroups[id := AdminGroup(name, map[])];
    r := Ok(AdminGroup(name, map[]));
  }

  /** GET /admin-groups/{id}; nothing changes. */
  method GetAdminGroup(st: Store, creds: Credentials, id: string) returns (r: Result<AdminGroup>)
    ensures RequireRoot(creds).Stop? ==> r == Err(Forbidden(MissingGroup))
    ensures RequireRoot(creds).Continue? && id !in st.adminGroups ==> r == Err(NotFound(AdminGroupNotFound))
    ensures RequireRoot(creds).Continue? && id in st.adminGroups ==> r == Ok(st.adminGroups[id])
  {
    var gate := RequireRoot(creds);
    if gate.Stop? {
      return Err(gate.error);
    }
    if id !in st.adminGroups {
      return Err(NotFound(AdminGroupNotFound));
    }
    r := Ok(st.adminGroups[id]);
  }

  /** PUT /admin-groups/{id}: only the name changes; the permissions stay. */
  method RenameAdminGroup(st: Store, creds: Credentials, id: string, name: string) returns (r: Result<AdminGroup>)
    modifies st`adminGroups
    ensures id == RootGroupId ==> r == Err(BadRequest(InvalidId))
    ensures id != RootGroupId && RequireRoot(creds).Stop? ==> r == Err(Forbidden(MissingGroup))
    ensures id != RootGroupId && RequireRoot(creds).Continue? && id !in old(st.adminGroups) ==>
              r == Err(NotFound(AdminGroupNotFound))
    ensures r.Err? ==> st.adminGroups == old(st.adminGroups)
    ensures id != RootGroupId && RequireRoot(creds).Continue? && id in old(st.adminGroups) ==>
              var g := old(st.adminGroups)[id].(name := name);
              r == Ok(g) && st.adminGroups == old(st.adminGroups)[id := g]
              && g.permissions == old(st.adminGroups)[id].permissions
    ensures RootGroupId in old(st.adminGroups) ==> st.adminGroups[RootGroupId] == old(st.adminGroups)[RootGroupId]
  {
    if id == RootGroupId {
      return Err(BadRequest(InvalidId));
    }
    var gate := RequireRoot(creds);
    if gate.Stop? {
      return Err(gate.error);
    }
    if id !in st.adminGroups {
      return Err(NotFound(AdminGroupNotFound));
    }
    var g := st.adminGroups[id].(name := name);
    st.adminGroups := st.adminGroups[id := g];
    r := Ok(g);
  }

  /** DELETE /admin-groups/{id}: exactly that group goes; a miss changes nothing. Admins
      that list the group keep it in their `groups`. */
  method DeleteAdminGroup(st: Store, creds: Credentials, id: string) returns (r: Result<string>)
    modifies st`adminGroups
    ensures id == RootGroupId ==> r == Err(BadRequest(InvalidId))
    ensures id != RootGroupId && RequireRoot(creds).Stop? ==> r == Err(Forbidden(MissingGroup))
    ensures id != RootGroupId && RequireRoot(creds).Continue? && id !in old(st.adminGroups) ==>
              r == Err(NotFound(AdminGroupNotFound))
    ensures r.Err? ==> st.adminGroups == old(st.adminGroups)
    ensures id != RootGroupId && RequireRoot(creds).Continue? && id in old(st.adminGroups) ==>
              r == Ok(Success) && st.adminGroups == old(st.adminGroups) - {id}
    ensures RootGroupId in old(st.adminGroups) ==>
              RootGroupId in st.adminGroups && st.adminGroups[RootGroupId] == old(st.adminGroups)[RootGroupId]
  {
    if id == RootGroupId {
      return Err(BadRequest(InvalidId));
    }
    var gate := RequireRoot(creds);
    if gate.Stop? {
      return Err(gate.error);
    }
    if id !in st.adminGroups {
      return Err(NotFound(AdminGroupNotFound));
    }
    st.adminGroups := st.adminGroups - {id};
    r := Ok(Success);
  }

  /** PUT /admin-groups/{id}/permissions: the whole permission map is replaced; the name
      stays. */
  method SetGroupPermissions(st: Store, creds: Credentials, id: string, permissions: map<string, bool>)
    returns (r: Result<AdminGroup>)
    modifies st`adminGroups
    ensures id == RootGroupId ==> r == Err(BadRequest(InvalidId))
    ensures id != RootGroupId && RequireRoot(creds).Stop? ==> r == Err(Forbidden(MissingGroup))
    ensures id != RootGroupId && RequireRoot(creds).Continue? && id !in old(st.adminGroups) ==>
              r == Err(NotFound(AdminGroupNotFound))
    ensures r.Err? ==> st.adminGroups == old(st.adminGroups)
    ensures id != RootGroupId && RequireRoot(creds).Continue? && id in old(st.adminGroups) ==>
              var g := AdminGroup(old(st.adminGroups)[id].name, permissions);
              r == Ok(g) && st.adminGroups == old(st.adminGroups)[id := g]
    ensures RootGroupId in old(st.adminGroups) ==> st.adminGroups[RootGroupId] == old(st.adminGroups)[RootGroupId]
  {
    if id == RootGroupId {
      return Err(BadRequest(InvalidId));
    }
    var gate := RequireRoot(creds);
    if gate.Stop? {
      return Err(gate.error);
    }
    if id !in st.adminGroups {
      return Err(NotFound(AdminGroupNotFound));
    }
    var g := st.adminGroups[id].(permissions := permissions);
    st.adminGroups := st.adminGroups[id := g];
    r := Ok(g);
  }
}

=== FILE: admin_manage.dfy ===
/** The root-only admin routes (server/modules/admin-manage/admin/routes.js): create, get,
    rename, delete, replace groups, replace permissions, link and unlink a user. Request
    validation refuses the root admin's id on rename, groups, permissions, link and unlink
    before any guard runs; delete has no such check. Every change to what an admin may do
    revokes the linked user's sessions. */
module AdminManage {
  import opened Wrappers
  import opened Names
  import opened Documents
  import opened Links
  import opened Preware
  import opened Db

  const AdminNotFound := "Admin not found."

  /** POST /admins: one new admin with no link, no groups and no permissions. */
  method CreateAdmin(st: Store, creds: Credentials, name: string, id: Id) returns (r: Result<Admin>)
    requires id !in st.admins
    modifies st`admins
    ensures RequireRoot(creds).Stop? ==> r == Err(Forbidden(MissingGroup)) && st.admins == old(st.admins)
    ensures RequireRoot(creds).Continue? ==> r == Ok(NewAdmin(name)) && st.admins == old(st.admins)[id := NewAdmin(name)]
    ensures old(st.Linked()) ==> st.Linked()
  {
    var gate := RequireRoot(creds);
    if gate.Stop? {
      return Err(gate.error);
    }
    if old(st.Linked()) {
      AdminUsersUpdate(st.admins, id, NewAdmin(name));
      AddUnlinkedRole(st.users, AdminUsers(st.admins), AdminKey, id);
    }
    st.admins := st.admins[id := NewAdmin(name)];
    r := Ok(NewAdmin(name));
  }

  /** GET /admins/{id}. */
  method GetAdmin(st: Store, creds: Credentials, id: string) returns (r: Result<Admin>)
    ensures RequireRoot(creds).Stop? ==> r == Err(Forbidden(MissingGroup))
    ensures RequireRoot(creds).Continue? && id !in st.admins ==> r == Err(NotFound(AdminNotFound))
    ensures RequireRoot(creds).Continue? && id in st.admins ==> r == Ok(st.admins[id])
  {
    var gate := RequireRoot(creds);
    if gate.Stop? {
      return Err(gate.error);
    }
    if id !in st.admins {
      return Err(NotFound(AdminNotFound));
    }
    r := Ok(st.admins[id]);
  }

  /** PUT /admins/{id}: only the name changes; never the root admin's. */
  method RenameAdmin(st: Store, creds: Credentials, id: string, name: Name) returns (r: Result<Admin>)
    modifies st`admins
    ensures id == RootAdminId ==> r == Err(BadRequest(InvalidId))
    ensures id != RootAdminId && RequireRoot(creds).Stop? ==> r == Err(Forbidden(MissingGroup))
    ensures id != RootAdminId && RequireRoot(creds).Continue? && id !in old(st.admins) ==> r == Err(NotFound(AdminNotFound))
    ensures r.Err? ==> st.admins == old(st.admins)
    ensures r.Ok? ==> id in old(st.admins) && st.admins == old(st.admins)[id := old(st.admins)[id].(name := name)]
                      && r.value == st.admins[id]
    ensures id != RootAdminId && RequireRoot(creds).Continue? && id in old(st.admins) ==> r.Ok?
    ensures old(st.Linked()) ==> st.Linked()
  {
    if id == RootAdminId {
      return Err(BadRequest(InvalidId));
    }
    var gate := RequireRoot(creds);
    if gate.Stop? {
      return Err(gate.error);
    }
    if id !in st.admins {
      return Err(NotFound(AdminNotFound));
    }
    AdminUsersUpdate(st.admins, id, st.admins[id].(name := name));
    assert AdminUsers(st.admins)[id := st.admins[id].user] == AdminUsers(st.admins);
    st.admins := st.admins[id := st.admins[id].(name := name)];
    r := Ok(st.admins[id]);
  }

  /** DELETE /admins/{id}: exactly that admin goes. Nothing protects the root admin here,
      and the linked user keeps its link to the deleted admin. */
  method DeleteAdmin(st: Store, creds: Credentials, id: string) returns (r: Result<string>)
    modifies st`admins
    ensures RequireRoot(creds).Stop? ==> r == Err(Forbidden(MissingGroup)) && st.admins == old(st.admins)
    ensures RequireRoot(creds).Continue? && id !in old(st.admins) ==>
              r == Err(NotFound(AdminNotFound)) && st.admins == old(st.admins)
    ensures RequireRoot(creds).Continue? && id in old(st.admins) ==>
              r == Ok(Success) && st.admins == old(st.admins) - {id}
  {
    var gate := RequireRoot(creds);
    if gate.Stop? {
      return Err(gate.error);
    }
    if id !in st.admins {
      return Err(NotFound(AdminNotFound));
    }
    st.admins := st.admins - {id};
    r := Ok(Success);
  }

  /** The sessions left after an admin changes: a linked user loses all of theirs. */
  function RevokeLinked(sessions: map<Id, Session>, admin: Admin): (s: map<Id, Session>)
    ensures admin.user.None? ==> s == sessions
    ensures admin.user.Some? ==> SessionsOf(s, admin.user.value.id) == map[]
    ensures admin.user.Some? ==> forall other | other != admin.user.value.id :: SessionsOf(s, other) == SessionsOf(sessions, other)
  {
    if admin.user.Some? then
      var s := WithoutUserSessions(sessions, admin.user.value.id);
      assert forall other | other != admin.user.value.id :: SessionsOf(s, other) == SessionsOf(sessions, other) by {
        forall other | other != admin.user.value.id
          ensures SessionsOf(s, other) == SessionsOf(sessions, other)
        {
          RevokeSparesOthers(sessions, admin.user.value.id, other);
        }
      }
      RevokeClearsUser(sessions, admin.user.value.id);
      s
    else sessions
  }

  /** PUT /admins/{id}/groups: the group map is replaced as a whole, then the linked user's
      sessions are revoked. */
  method SetGroups(st: Store, creds: Credentials, id: string, groups: map<Id, string>) returns (r: Result<Admin>)
    modifies st`admins, st`sessions
    ensures id == RootAdminId ==> r == Err(BadRequest(InvalidId))
    ensures id != RootAdminId && RequireRoot(creds).Stop? ==> r == Err(Forbidden(MissingGroup))
    ensures id != RootAdminId && RequireRoot(creds).Continue? && id !in old(st.admins) ==> r == Err(NotFound(AdminNotFound))
    ensures r.Err? ==> st.admins == old(st.admins) && st.sessions == old(st.sessions)
    ensures r.Ok? ==> id in old(st.admins)
                      && st.admins == old(st.admins)[id := old(st.admins)[id].(groups := groups)]
                      && st.sessions == RevokeLinked(old(st.sessions), old(st.admins)[id])
                      && r.value == st.admins[id]
    ensures id != RootAdminId && RequireRoot(creds).Continue? && id in old(st.admins) ==> r.Ok?
    ensures old(st.Linked()) ==> st.Linked()
  {
    if id == RootAdminId {
      return Err(BadRequest(InvalidId));
    }
    var gate := RequireRoot(creds);
    if gate.Stop? {
      return Err(gate.error);
    }
    if id !in st.admins {
      return Err(NotFound(AdminNotFound));
    }
    var admin := st.admins[id];
    AdminUsersUpdate(st.admins, id, admin.(groups := groups));
    assert AdminUsers(st.admins)[id := admin.user] == AdminUsers(st.admins);
    st.admins := st.admins[id := admin.(groups := groups)];
    st.sessions := RevokeLinked(st.sessions, admin);
    r := Ok(st.admins[id]);
  }

  /** PUT /admins/{id}/permissions: the permission map is replaced as a whole, then the
      linked user's sessions are revoked. */
  method SetPermissions(st: Store, creds: Credentials, id: string, permissions: map<string, bool>) returns (r: Result<Admin>)
    modifies st`admins, st`sessions
    ensures id == RootAdminId ==> r == Err(BadRequest(InvalidId))
    ensures id != RootAdminId && RequireRoot(creds).Stop? ==> r == Err(Forbidden(MissingGroup))
    ensures id != RootAdminId && RequireRoot(creds).Continue? && id !in old(st.admins) ==> r == Err(NotFound(AdminNotFound))
    ensures r.Err? ==> st.admins == old(st.admins) && st.sessions == old(st.sessions)
    ensures r.Ok? ==> id in old(st.admins)
                      && st.admins == old(st.admins)[id := old(st.admins)[id].(permissions := permissions)]
                      && st.sessions == RevokeLinked(old(st.sessions), old(st.admins)[id])
                      && r.value == st.admins[id]
    ensures id != RootAdminId && RequireRoot(creds).Continue? && id in old(st.admins) ==> r.Ok?
    ensures old(st.Linked()) ==> st.Linked()
  {
    if id == RootAdminId {
      return Err(BadRequest(InvalidId));
    }
    var gate := RequireRoot(creds);
    if gate.Stop? {
      return Err(gate.error);
    }
    if id !in st.admins {
      return Err(NotFound(AdminNotFound));
    }
    var admin := st.admins[id];
    AdminUsersUpdate(st.admins, id, admin.(permissions := permissions));
    assert AdminUsers(st.admins)[id := admin.user] == AdminUsers(st.admins);
    st.admins := st.admins[id := admin.(permissions := permissions)];
    st.sessions := RevokeLinked(st.sessions, admin);
    r := Ok(st.admins[id]);
  }

  /** Linking admin `adminId` and user `userId` after both conflict checks passed keeps
      both kinds of link consistent. */
  lemma LinkKeepsLinked(users: map<Id, User>, accounts: map<Id, Account>, admins: map<Id, Admin>,
                        adminId: Id, userId: Id, username: string, roleName: string)
    requires LinkedBothWays(users, AccountUsers(accounts), AccountKey)
    requires LinkedBothWays(users, AdminUsers(admins), AdminKey)
    requires adminId in admins && userId in users
    requires LinkConflict(users[userId], userId, admins[adminId].user, adminId, AdminKey).None?
    ensures var users' := users[userId := users[userId].(roles := LinkRole(users[userId].roles, AdminKey, RoleLink(adminId, roleName)))];
            var admins' := admins[adminId := admins[adminId].(user := Some(UserRef(userId, username)))];
            LinkedBothWays(users', AdminUsers(admins'), AdminKey)
            && LinkedBothWays(users', AccountUsers(accounts), AccountKey)
  {
    LinkPreserves(users, AdminUsers(admins), AdminKey, userId, adminId, username, roleName);
    AdminUsersUpdate(admins, adminId, admins[adminId].(user := Some(UserRef(userId, username))));
    SameSlotPreserves(users, AccountUsers(accounts), AccountKey, userId,
                      users[userId].(roles := LinkRole(users[userId].roles, AdminKey, RoleLink(adminId, roleName))));
  }

  /** PUT /admins/{id}/user: the admin must exist, then a user with that username; then the
      two conflict checks; then both sides point at each other and the user's sessions are
      revoked. */
  method LinkUser(st: Store, creds: Credentials, id: string, username: string) returns (r: Result<Admin>)
    modifies st`admins, st`users, st`sessions
    ensures id == RootAdminId ==> r == Err(BadRequest(InvalidId))
    ensures id != RootAdminId && RequireRoot(creds).Stop? ==> r == Err(Forbidden(MissingGroup))
    ensures id != RootAdminId && RequireRoot(creds).Continue? && id !in old(st.admins) ==> r == Err(NotFound(AdminNotFound))
    ensures (id != RootAdminId && RequireRoot(creds).Continue? && id in old(st.admins)
             && forall u | u in old(st.users) :: old(st.users)[u].username != username) ==> r == Err(NotFound(UserNotFound))
    ensures r.Err? ==> st.admins == old(st.admins) && st.users == old(st.users) && st.sessions == old(st.sessions)
    ensures r.Err? && r.error.Conflict? ==>
              exists u | u in old(st.users) && old(st.users)[u].username == username ::
                Some(r.error) == LinkConflict(old(st.users)[u], u, old(st.admins)[id].user, id, AdminKey)
    ensures r.Ok? ==>
              id in old(st.admins)
              && exists u | u in old(st.users) && old(st.users)[u].username == username ::
                   && LinkConflict(old(st.users)[u], u, old(st.admins)[id].user, id, AdminKey).None?
                   && st.admins == old(st.admins)[id := old(st.admins)[id].(user := Some(UserRef(u, username)))]
                   && st.users == old(st.users)[u := old(st.users)[u].(roles := LinkRole(old(st.users)[u].roles, AdminKey,
                                                       RoleLink(id, FullName(old(st.admins)[id].name))))]
                   && st.sessions == WithoutUserSessions(old(st.sessions), u)
                   && r == Ok(st.admins[id])
    // a named user with no conflict is linked; a conflict of every named user is answered
    ensures (id != RootAdminId && RequireRoot(creds).Continue? && id in old(st.admins)
             && (exists u | u in old(st.users) :: old(st.users)[u].username == username)
             && forall u | u in old(st.users) && old(st.users)[u].username == username ::
                  LinkConflict(old(st.users)[u], u, old(st.admins)[id].user, id, AdminKey).None?) ==> r.Ok?
    ensures (id != RootAdminId && RequireRoot(creds).Continue? && id in old(st.admins)
             && (exists u | u in old(st.users) :: old(st.users)[u].username == username)
             && forall u | u in old(st.users) && old(st.users)[u].username == username ::
                  LinkConflict(old(st.users)[u], u, old(st.admins)[id].user, id, AdminKey).Some?) ==>
              r.Err? && r.error.Conflict?
    ensures old(st.Linked()) ==> st.Linked()
  {
    if id == RootAdminId {
      return Err(BadRequest(InvalidId));
    }
    var gate := RequireRoot(creds);
    if gate.Stop? {
      return Err(gate.error);
    }
    if id !in st.admins {
      return Err(NotFound(AdminNotFound));
    }
    var admin := st.admins[id];
    var found := st.FindUser((u: User) => u.username == username);
    if found.None? {
      return Err(NotFound(UserNotFound));
    }
    var uid := found.value;
    var user := st.users[uid];
    var conflict := LinkConflict(user, uid, admin.user, id, AdminKey);
    if conflict.Some? {
      return Err(conflict.value);
    }
    var roleName := FullName(admin.name);
    if old(st.Linked()) {
      LinkKeepsLinked(st.users, st.accounts, st.admins, id, uid, username, roleName);
    }
    st.admins := st.admins[id := admin.(user := Some(UserRef(uid, username)))];
    st.users := st.users[uid := user.(roles := LinkRole(user.roles, AdminKey, RoleLink(id, roleName)))];
    st.DeleteUserSessions(uid);
    r := Ok(st.admins[id]);
  }

  /** Unlinking admin `adminId` from its user clears both sides and keeps both kinds of
      link consistent. */
  lemma UnlinkKeepsLinked(users: map<Id, User>, accounts: map<Id, Account>, admins: map<Id, Admin>, adminId: Id)
    requires LinkedBothWays(users, AccountUsers(accounts), AccountKey)
    requires LinkedBothWays(users, AdminUsers(admins), AdminKey)
    requires adminId in admins && admins[adminId].user.Some?
    ensures admins[adminId].user.value.id in users
    ensures var u := admins[adminId].user.value.id;
            var users' := users[u := users[u].(roles := UnlinkRole(users[u].roles, AdminKey))];
            var admins' := admins[adminId := admins[adminId].(user := None)];
            LinkedBothWays(users', AdminUsers(admins'), AdminKey)
            && LinkedBothWays(users', AccountUsers(accounts), AccountKey)
  {
    UnlinkPreserves(users, AdminUsers(admins), AdminKey, adminId);
    AdminUsersUpdate(admins, adminId, admins[adminId].(user := None));
    var u := admins[adminId].user.value.id;
    SameSlotPreserves(users, AccountUsers(accounts), AccountKey, u, users[u].(roles := UnlinkRole(users[u].roles, AdminKey)));
  }

  /** DELETE /admins/{id}/user: an admin with no user is returned unchanged; otherwise its
      user must exist, both sides are cleared and the user's sessions are revoked. */
  method UnlinkUser(st: Store, creds: Credentials, id: string) returns (r: Result<Admin>)
    modifies st`admins, st`users, st`sessions
    ensures id == RootAdminId ==> r == Err(BadRequest(InvalidId))
    ensures id != RootAdminId && RequireRoot(creds).Stop? ==> r == Err(Forbidden(MissingGroup))
    ensures id != RootAdminId && RequireRoot(creds).Continue? && id !in old(st.admins) ==> r == Err(NotFound(AdminNotFound))
    ensures id != RootAdminId && RequireRoot(creds).Continue? && id in old(st.admins) && old(st.admins)[id].user.None? ==>
              r == Ok(old(st.admins)[id])
    ensures (id != RootAdminId && RequireRoot(creds).Continue? && id in old(st.admins) && old(st.admins)[id].user.Some?
             && old(st.admins)[id].user.value.id !in old(st.users)) ==> r == Err(NotFound(UserNotFound))
    ensures r.Err? || old(st.admins)[id].user.None? ==>
              st.admins == old(st.admins) && st.users == old(st.users) && st.sessions == old(st.sessions)
    ensures r.Ok? && old(st.admins)[id].user.Some? ==>
              var u := old(st.admins)[id].user.value.id;
              && u in old(st.users)
              && st.admins == old(st.admins)[id := old(st.admins)[id].(user := None)]
              && st.users == old(st.users)[u := old(st.users)[u].(roles := UnlinkRole(old(st.users)[u].roles, AdminKey))]
              && st.sessions == WithoutUserSessions(old(st.sessions), u)
    ensures r.Ok? ==> st.admins[id].user.None? && r.value == st.admins[id]
    ensures old(st.Linked()) ==> st.Linked()
  {
    if id == RootAdminId {
      return Err(BadRequest(InvalidId));
    }
    var gate := RequireRoot(creds);
    if gate.Stop? {
      return Err(gate.error);
    }
    if id !in st.admins {
      return Err(NotFound(AdminNotFound));
    }
    var admin := st.admins[id];
    if admin.user.None? {
      return Ok(admin);
    }
    var uid := admin.user.value.id;
    if uid !in st.users {
      return Err(NotFound(UserNotFound));
    }
    if old(st.Linked()) {
      UnlinkKeepsLinked(st.users, st.accounts, st.admins, id);
    }
    st.admins := st.admins[id := admin.(user := None)];
    st.users := st.users[uid := st.users[uid].(roles := UnlinkRole(st.users[uid].roles, AdminKey))];
    st.DeleteUserSessions(uid);
    r := Ok(st.admins[id]);
  }
}

=== FILE: auth.dfy ===
/** The `validate` callback of the `advanced` auth strategy (server/auth.js): the session named
    by the credentials must exist and its key must match; a match touches the session's
    `lastActive`. The JWT that carries the credentials is represented by the credentials
    themselves. */
module Auth {
  import opened Wrappers
  import opened Crypto
  import opened Documents
  import opened Preware
  import opened Db

  /** `{isValid, credentials}`; `credentials` is present only on a valid verdict. */
  datatype Verdict = Verdict(isValid: bool, credentials: Option<Credentials>)

  /** Authenticates a request whose token carried `token` (None: no authorization header).
      An invalid token yields an invalid verdict, never an error. */
  method Validate(st: Store, token: Option<Credentials>, now: int) returns (v: Verdict)
    modifies st`sessions
    ensures v.isValid <==> token.Some? && FindSessionByCredentials(old(st.sessions), token.value.session.id, token.value.session.key).Some?
    ensures v.isValid ==> v.credentials == token
    ensures !v.isValid ==> v.credentials.None? && st.sessions == old(st.sessions)
    ensures v.isValid ==> var sid := token.value.session.id;
              st.sessions == old(st.sessions)[sid := old(st.sessions)[sid].(lastActive := Some(now))]
  {
    if token.None? {
      return Verdict(false, None);
    }
    var sid := token.value.session.id;
    var session := FindSessionByCredentials(st.sessions, sid, token.value.session.key);
    if session.None? {
      return Verdict(false, None);
    }
    st.UpdateLastActive(sid, now);
    v := Verdict(true, token);
  }

  /** The id and plaintext key of a freshly created session validate. */
  method FreshSessionValidates(st: Store, sid: Id, key: string, userId: Id, ip: string, userAgent: string,
                               creds: Credentials, now: int) returns (v: Verdict)
    requires sid !in st.sessions
    requires creds.session == SessionRef(sid, key)
    modifies st`sessions
    ensures v.isValid && v.credentials == Some(creds)
  {
    st.CreateSession(sid, key, userId, ip, userAgent, now);
    v := Validate(st, Some(creds), now);
  }
}

=== FILE: auth_attempts.dfy ===
/** The login throttle of server/modules/login/auth-attempt.js: the log of failed logins,
    the windowed counts per ip and per (ip, username), and the abuse verdict. */
module AuthAttempts {
  import opened Documents
  import opened Db

  /** The thresholds `authAttempts.forIp` and `authAttempts.forIpAndUser`. */
  const ForIp := 50
  const ForIpAndUser := 7

  const HourMs := 3600000

  /** Attempts strictly after this instant are counted; `hours` is `durationOfBlocking`. */
  function WindowStart(now: int, hours: int): int
  {
    now - hours * HourMs
  }

  predicate CountsForIp(a: AuthAttempt, ip: string, since: int)
  {
    a.ip == ip && a.timeCreated > since
  }

  predicate CountsForPair(a: AuthAttempt, ip: string, username: string, since: int)
  {
    CountsForIp(a, ip, since) && a.username == username
  }

  /** `count({ip, timeCreated: {$gt: since}})`. */
  function CountByIp(log: seq<AuthAttempt>, ip: string, since: int): (n: nat)
    ensures n <= |log|
  {
    if log == [] then 0
    else CountByIp(log[..|log| - 1], ip, since) + (if CountsForIp(log[|log| - 1], ip, since) then 1 else 0)
  }

  /** `count({ip, username, timeCreated: {$gt: since}})`. Its filter refines the ip filter,
      so it never exceeds the ip count. */
  function CountByIpAndUser(log: seq<AuthAttempt>, ip: string, username: string, since: int): (n: nat)
    ensures n <= CountByIp(log, ip, since)
  {
    if log == [] then 0
    else CountByIpAndUser(log[..|log| - 1], ip, username, since)
         + (if CountsForPair(log[|log| - 1], ip, username, since) then 1 else 0)
  }

  /** `AuthAttempt.abuseDetected(ip, username)`; it only reads the log. */
  function AbuseDetected(log: seq<AuthAttempt>, ip: string, username: string, now: int, hours: int): (blocked: bool)
    requires ip != "" && username != ""
    ensures blocked <==> CountByIp(log, ip, WindowStart(now, hours)) >= ForIp
                         || CountByIpAndUser(log, ip, username, WindowStart(now, hours)) >= ForIpAndUser
  {
    var since := WindowStart(now, hours);
    CountByIp(log, ip, since) >= ForIp || CountByIpAndUser(log, ip, username, since) >= ForIpAndUser
  }

  /** One appended attempt adds one to each count whose filter it passes, and nothing to
      the others. */
  lemma {:induction false} CountsAppend(log: seq<AuthAttempt>, a: AuthAttempt, ip: string, username: string, since: int)
    ensures CountByIp(log + [a], ip, since) == CountByIp(log, ip, since) + (if CountsForIp(a, ip, since) then 1 else 0)
    ensures CountByIpAndUser(log + [a], ip, username, since)
            == CountByIpAndUser(log, ip, username, since) + (if CountsForPair(a, ip, username, since) then 1 else 0)
  {
    assert (log + [a])[..|log + [a]| - 1] == log;
  }

  /** At a fixed instant, recording another attempt never lifts a block. */
  lemma AppendNeverUnblocks(log: seq<AuthAttempt>, a: AuthAttempt, ip: string, username: string, now: int, hours: int)
    requires ip != "" && username != ""
    requires AbuseDetected(log, ip, username, now, hours)
    ensures AbuseDetected(log + [a], ip, username, now, hours)
  {
    CountsAppend(log, a, ip, username, WindowStart(now, hours));
  }

  /** An attempt at or before the window start changes no verdict. */
  lemma StaleAppendChangesNothing(log: seq<AuthAttempt>, a: AuthAttempt, ip: string, username: string, now: int, hours: int)
    requires ip != "" && username != ""
    requires a.timeCreated <= WindowStart(now, hours)
    ensures AbuseDetected(log + [a], ip, username, now, hours) == AbuseDetected(log, ip, username, now, hours)
  {
    CountsAppend(log, a, ip, username, WindowStart(now, hours));
  }

  /** When every logged attempt is at or before the window start, both counts are zero. */
  lemma {:induction false} StaleLogCountsNothing(log: seq<AuthAttempt>, ip: string, username: string, since: int)
    requires forall i | 0 <= i < |log| :: log[i].timeCreated <= since
    ensures CountByIp(log, ip, since) == 0
    ensures CountByIpAndUser(log, ip, username, since) == 0
  {
    if log != [] {
      StaleLogCountsNothing(log[..|log| - 1], ip, username, since);
    }
  }

  /** Attempts age out: once the window has moved past all of them, nobody is blocked. */
  lemma AgedOutNotBlocked(log: seq<AuthAttempt>, ip: string, username: string, now: int, hours: int)
    requires ip != "" && username != ""
    requires forall i | 0 <= i < |log| :: log[i].timeCreated <= WindowStart(now, hours)
    ensures !AbuseDetected(log, ip, username, now, hours)
  {
    StaleLogCountsNothing(log, ip, username, WindowStart(now, hours));
  }

  /** A log whose every attempt passes the ip filter counts all of them. */
  lemma {:induction false} AllFromIpCounted(log: seq<AuthAttempt>, ip: string, since: int)
    requires forall i | 0 <= i < |log| :: CountsForIp(log[i], ip, since)
    ensures CountByIp(log, ip, since) == |log|
  {
    if log != [] {
      AllFromIpCounted(log[..|log| - 1], ip, since);
    }
  }

  /** A log whose every attempt passes the (ip, username) filter counts all of them. */
  lemma {:induction false} AllFromPairCounted(log: seq<AuthAttempt>, ip: string, username: string, since: int)
    requires forall i | 0 <= i < |log| :: CountsForPair(log[i], ip, username, since)
    ensures CountByIpAndUser(log, ip, username, since) == |log|
  {
    if log != [] {
      AllFromPairCounted(log[..|log| - 1], ip, username, since);
    }
  }

  /** Fifty recent failures from one ip block that ip for every username. */
  lemma IpLimitBlocksEveryone(log: seq<AuthAttempt>, ip: string, username: string, now: int, hours: int)
    requires ip != "" && username != "" && |log| >= ForIp
    requires forall i | 0 <= i < |log| :: CountsForIp(log[i], ip, WindowStart(now, hours))
    ensures AbuseDetected(log, ip, username, now, hours)
  {
    AllFromIpCounted(log, ip, WindowStart(now, hours));
  }

  /** Seven recent failures for one (ip, username) block that pair, well below the ip limit. */
  lemma PairLimitBlocks(log: seq<AuthAttempt>, ip: string, username: string, now: int, hours: int)
    requires ip != "" && username != "" && |log| >= ForIpAndUser
    requires forall i | 0 <= i < |log| :: CountsForPair(log[i], ip, username, WindowStart(now, hours))
    ensures AbuseDetected(log, ip, username, now, hours)
  {
    AllFromPairCounted(log, ip, username, WindowStart(now, hours));
  }

  /** `AuthAttempt.create(ip, username)`: one record is appended, stamped now. */
  method RecordAttempt(st: Store, ip: string, username: string, now: int)
    requires ip != "" && username != ""
    modifies st`attempts
    ensures st.attempts == old(st.attempts) + [AuthAttempt(ip, username, now)]
  {
    st.attempts := st.attempts + [AuthAttempt(ip, username, now)];
  }
}

=== FILE: crypto.dfy ===
/** The credential hasher: bcrypt hashing and comparison, and random key generation.
    bcrypt is modelled as a deterministic one-way digest (its salt and cost are not
    modelled); the random key is supplied by the caller. */
module Crypto {

  /** A stored hash. Only `Matches` looks inside it. */
  datatype Digest = Digest(secret: string)

  /** The hash that `generatePasswordHash` / `generateKeyHash` store for a secret. */
  function Hash(secret: string): Digest
  {
    Digest(secret)
  }

  /** `Bcrypt.compare(secret, hash)`. */
  predicate Matches(secret: string, hash: Digest)
  {
    hash.secret == secret
  }

  /** The `{key, hash}` pair of `Session.generateKeyHash` (and `{password, hash}` of
      `User.generatePasswordHash`). */
  datatype KeyHash = KeyHash(key: string, hash: Digest)

  function GenerateKeyHash(key: string): (kh: KeyHash)
    ensures kh.key == key
    ensures Matches(key, kh.hash)
    ensures forall other :: other != key ==> !Matches(other, kh.hash)
  {
    KeyHash(key, Hash(key))
  }

  /** Hash then compare succeeds for the secret that was hashed ... */
  lemma HashMatches(x: string)
    ensures Matches(x, Hash(x))
  {
  }

  /** ... and fails for every other secret. */
  lemma HashRejectsOthers(x: string, y: string)
    requires y != x
    ensures !Matches(y, Hash(x))
  {
  }
}

=== FILE: db.dfy ===
/** The document store shared by every route, and the model methods the routes call on it:
    `User.findOne` / `findByCredentials`, `Account`/`Admin.findByUsername`, the role-name
    update by linked user id, and the session store (`Session.create`, `findByCredentials`,
    `updateLastActive`, `deleteUserSessions`). */
module Db {
  import opened Wrappers
  import opened Crypto
  import opened Names
  import opened Documents
  import opened Links

  // ------------------------------------------------------------ session model

  /** The document `Session.create(userId, ip, userAgent)` stores: the key's hash, never
      the key. */
  function NewSession(userId: Id, key: string, ip: string, userAgent: string, now: int): (s: Session)
    ensures s.userId == userId && s.ip == ip && s.userAgent == userAgent
    ensures Matches(key, s.keyHash)
    ensures forall other :: other != key ==> !Matches(other, s.keyHash)
  {
    Session(userId, GenerateKeyHash(key).hash, ip, userAgent, now, None)
  }

  /** `Session.findByCredentials(id, key)`: the session with that id, if the key matches the
      stored hash; nothing otherwise. */
  function FindSessionByCredentials(sessions: map<Id, Session>, id: string, key: string): (r: Option<Session>)
    ensures r.Some? <==> id in sessions && Matches(key, sessions[id].keyHash)
    ensures r.Some? ==> r.value == sessions[id]
  {
    if id in sessions && Matches(key, sessions[id].keyHash) then Some(sessions[id]) else None
  }

  /** The id and key of a freshly created session find it ... */
  lemma FreshSessionFound(sessions: map<Id, Session>, id: Id, userId: Id, key: string, ip: string, userAgent: string, now: int)
    ensures FindSessionByCredentials(sessions[id := NewSession(userId, key, ip, userAgent, now)], id, key)
            == Some(NewSession(userId, key, ip, userAgent, now))
  {
  }

  /** ... and any other key (the original key with a suffix, say) finds nothing. */
  lemma OtherKeyFindsNothing(sessions: map<Id, Session>, id: Id, userId: Id, key: string, other: string, ip: string, userAgent: string, now: int)
    requires other != key
    ensures FindSessionByCredentials(sessions[id := NewSession(userId, key, ip, userAgent, now)], id, other).None?
  {
  }

  /** An unknown id finds nothing, whatever the key. */
  lemma UnknownIdFindsNothing(sessions: map<Id, Session>, id: string, key: string)
    requires id !in sessions
    ensures FindSessionByCredentials(sessions, id, key).None?
  {
  }

  /** `Session.find({userId})`: the sessions of one user. */
  function SessionsOf(sessions: map<Id, Session>, userId: string): (r: map<Id, Session>)
    ensures forall s :: s in r <==> s in sessions && sessions[s].userId == userId
    ensures forall s | s in r :: r[s] == sessions[s]
  {
    map s | s in sessions && sessions[s].userId == userId :: sessions[s]
  }

  /** `Session.deleteUserSessions(userId)`: every session except that user's. */
  function WithoutUserSessions(sessions: map<Id, Session>, userId: string): (r: map<Id, Session>)
    ensures forall s :: s in r <==> s in sessions && sessions[s].userId != userId
    ensures forall s | s in r :: r[s] == sessions[s]
  {
    map s | s in sessions && sessions[s].userId != userId :: sessions[s]
  }

  /** Revoking one user's sessions leaves that user none ... */
  lemma RevokeClearsUser(sessions: map<Id, Session>, userId: string)
    ensures SessionsOf(WithoutUserSessions(sessions, userId), userId) == map[]
  {
    assert SessionsOf(WithoutUserSessions(sessions, userId), userId).Keys == {};
  }

  /** ... and every other user all of theirs. */
  lemma RevokeSparesOthers(sessions: map<Id, Session>, userId: string, other: string)
    requires other != userId
    ensures SessionsOf(WithoutUserSessions(sessions, userId), other) == SessionsOf(sessions, other)
  {
    var after := WithoutUserSessions(sessions, userId);
    assert SessionsOf(after, other).Keys == SessionsOf(sessions, other).Keys;
  }

  // ---------------------------------------------------------------- user model

  /** `User.create(username, password, email[, verify])`: an active user with no roles, the
      password stored only as its hash. */
  function NewUser(username: string, password: string, email: string, verify: Option<Token>): (u: User)
    ensures u.username == username && u.email == email && u.verify == verify
    ensures Matches(password, u.password)
    ensures u.isActive && u.roles == map[] && u.resetPassword.None?
  {
    User(username, email, Hash(password), true, map[], verify, None)
  }

  const UserNotFound := "User not found."
  const UsernameInUse := "Username already in use."
  const EmailInUse := "Email already in use."

  /** No two users share a username, and no two share an e-mail. */
  ghost predicate UniqueLogins(users: map<Id, User>)
  {
    forall a, b | a in users && b in users && a != b ::
      users[a].username != users[b].username && users[a].email != users[b].email
  }

  /** Some user other than `self` already has this username. */
  predicate UsernameTaken(users: map<Id, User>, username: string, self: Option<Id>)
  {
    exists id | id in users :: users[id].username == username && Some(id) != self
  }

  predicate EmailTaken(users: map<Id, User>, email: string, self: Option<Id>)
  {
    exists id | id in users :: users[id].email == email && Some(id) != self
  }

  /** The two uniqueness checks that precede creating a user (`self` absent) or updating
      user `self`: username first, then e-mail. */
  function IdentityConflict(users: map<Id, User>, username: string, email: string, self: Option<Id>): (e: Option<Error>)
    ensures e.None? <==> !UsernameTaken(users, username, self) && !EmailTaken(users, email, self)
    ensures UsernameTaken(users, username, self) ==> e == Some(Conflict(UsernameInUse))
    ensures !UsernameTaken(users, username, self) && EmailTaken(users, email, self) ==> e == Some(Conflict(EmailInUse))
  {
    if UsernameTaken(users, username, self) then Some(Conflict(UsernameInUse))
    else if EmailTaken(users, email, self) then Some(Conflict(EmailInUse))
    else None
  }

  /** Writing a user whose username and e-mail passed the checks, under the id the checks
      excluded or under any id when they excluded none, keeps usernames and e-mails unique. */
  lemma NoConflictKeepsUnique(users: map<Id, User>, id: Id, self: Option<Id>, u: User)
    requires UniqueLogins(users)
    requires IdentityConflict(users, u.username, u.email, self).None?
    requires self.None? || self == Some(id)
    ensures UniqueLogins(users[id := u])
  {
  }

  /** The user after a username change: only username, e-mail and (when given) isActive
      differ; roles, password and tokens are kept. */
  function WithIdentity(u: User, username: string, email: string, isActive: Option<bool>): (v: User)
    ensures v.username == username && v.email == email
    ensures v.isActive == (if isActive.Some? then isActive.value else u.isActive)
    ensures v.roles == u.roles && v.password == u.password && v.verify == u.verify && v.resetPassword == u.resetPassword
  {
    u.(username := username, email := email, isActive := if isActive.Some? then isActive.value else u.isActive)
  }

  /** `Account.findOneAndUpdate({'user.id': userId}, {$set: {'user.name': name}})`: when some
      account is linked to the user, one of them takes the new name; no other account
      changes. */
  ghost predicate AccountRenamed(before: map<Id, Account>, after: map<Id, Account>, userId: Id, name: string)
  {
    && ((forall a | a in before :: before[a].user.None? || before[a].user.value.id != userId) ==> after == before)
    && ((exists a | a in before :: before[a].user.Some? && before[a].user.value.id == userId) ==>
          exists a | a in before && before[a].user.Some? && before[a].user.value.id == userId ::
            after == before[a := before[a].(user := Some(UserRef(userId, name)))])
  }

  /** The same for `Admin.findOneAndUpdate`. */
  ghost predicate AdminRenamed(before: map<Id, Admin>, after: map<Id, Admin>, userId: Id, name: string)
  {
    && ((forall a | a in before :: before[a].user.None? || before[a].user.value.id != userId) ==> after == before)
    && ((exists a | a in before :: before[a].user.Some? && before[a].user.value.id == userId) ==>
          exists a | a in before && before[a].user.Some? && before[a].user.value.id == userId ::
            after == before[a := before[a].(user := Some(UserRef(userId, name)))])
  }

  // ------------------------------------------------------------- lower case

  predicate IsUpperAscii(c: char)
  {
    'A' <= c <= 'Z'
  }

  /** The lower-case form of one character; only the letters A-Z change. */
  function LowerChar(c: char): (d: char)
    ensures !IsUpperAscii(d)
    ensures !IsUpperAscii(c) ==> d == c
    ensures IsUpperAscii(c) ==> d as int - c as int == 'a' as int - 'A' as int
  {
    if IsUpperAscii(c) then (c as int + ('a' as int - 'A' as int)) as char else c
  }

  /** `toLowerCase()` on ASCII text: no capital is left, the length is kept and every
      other character stays where it was. */
  function LowerAscii(s: string): (r: string)
    ensures |r| == |s|
    ensures forall i | 0 <= i < |r| :: !IsUpperAscii(r[i])
    ensures forall i | 0 <= i < |s| && !IsUpperAscii(s[i]) :: r[i] == s[i]
  {
    seq(|s|, i requires 0 <= i < |s| => LowerChar(s[i]))
  }

  /** Lower-casing twice is lower-casing once, and text with no capital is left alone. */
  lemma LowerAsciiIdempotent(s: string)
    ensures LowerAscii(LowerAscii(s)) == LowerAscii(s)
    ensures (forall i | 0 <= i < |s| :: !IsUpperAscii(s[i])) ==> LowerAscii(s) == s
  {
  }

  /** Two spellings that differ only in the case of their letters store the same e-mail. */
  lemma LowerAsciiFoldsCase()
    ensures LowerAscii("Root@Example.COM") == LowerAscii("root@example.com") == "root@example.com"
  {
    assert LowerAscii("root@example.com") == "root@example.com" by {
      LowerAsciiIdempotent("root@example.com");
    }
  }

  // ------------------------------------------------------------------- store

  class Store {
    var users: map<Id, User>
    var accounts: map<Id, Account>
    var admins: map<Id, Admin>
    var adminGroups: map<Id, AdminGroup>
    var sessions: map<Id, Session>
    var statuses: map<Id, Status>
    var attempts: seq<AuthAttempt>

    /** Both kinds of User <-> role link are stored consistently. Link and unlink keep
        this; deleting a user or an account does not. */
    ghost predicate Linked()
      reads this
    {
      && LinkedBothWays(users, AccountUsers(accounts), AccountKey)
      && LinkedBothWays(users, AdminUsers(admins), AdminKey)
    }

    constructor Empty()
      ensures users == map[] && accounts == map[] && admins == map[] && adminGroups == map[]
      ensures sessions == map[] && statuses == map[] && attempts == []
      ensures Linked()
    {
      users, accounts, admins, adminGroups := map[], map[], map[], map[];
      sessions, statuses, attempts := map[], map[], [];
    }

    /** The store that the first-time setup leaves: the group `root`, the root admin in it,
        and the root user, linked to each other both ways. */
    constructor FirstTimeSetup(rootEmail: string, rootPassword: string)
      ensures adminGroups == map[RootGroupId := AdminGroup("Root", map[])]
      ensures admins.Keys == {RootAdminId} && IsMemberOf(admins[RootAdminId], RootGroupId)
      ensures users.Keys == {RootUserId} && users[RootUserId].username == RootUsername
      ensures users[RootUserId].email == LowerAscii(rootEmail)
      ensures Matches(rootPassword, users[RootUserId].password)
      ensures accounts == map[] && sessions == map[] && statuses == map[] && attempts == []
      ensures Linked()
    {
      adminGroups := map[RootGroupId := AdminGroup("Root", map[])];
      admins := map[RootAdminId := Admin(Name("Root", "Admin"), Some(UserRef(RootUserId, RootUsername)),
                                         map[RootGroupId := "Root"], map[])];
      users := map[RootUserId := User(RootUsername, LowerAscii(rootEmail), Hash(rootPassword), true,
                                      map[AdminKey := RoleLink(RootAdminId, "Root Admin")], None, None)];
      accounts, sessions, statuses, attempts := map[], map[], map[], [];
    }

    // -------------------------------------------------------------- user model

    /** `User.findOne(query)`: some user satisfying the query, if there is one. */
    method FindUser(query: User -> bool) returns (r: Option<Id>)
      ensures r.Some? ==> r.value in users && query(users[r.value])
      ensures r.None? ==> forall id | id in users :: !query(users[id])
    {
      if id :| id in users && query(users[id]) {
        r := Some(id);
      } else {
        r := None;
      }
    }

    /** The user `User.findByCredentials(login, password)` looks at: login matches the
        username or the e-mail. */
    static predicate LoginNames(u: User, login: string)
    {
      u.username == login || u.email == login
    }

    /** `User.findByCredentials(login, password)`: a user whose username or e-mail is
        `login` and whose stored hash matches the password; nothing for an unknown login
        or a wrong password. */
    method FindUserByCredentials(login: string, password: string) returns (r: Option<Id>)
      ensures r.Some? ==> r.value in users && LoginNames(users[r.value], login)
                          && Matches(password, users[r.value].password)
      ensures (forall id | id in users :: !LoginNames(users[id], login)) ==> r.None?
      ensures forall id | id in users && LoginNames(users[id], login) ::
                ((forall other | other in users && LoginNames(users[other], login) :: other == id)
                 && Matches(password, users[id].password)) ==> r == Some(id)
    {
      var candidate := FindUser(u => LoginNames(u, login));
      if candidate.Some? && Matches(password, users[candidate.value].password) {
        r := candidate;
      } else {
        r := None;
      }
    }

    /** `Account.findByUsername(name)`: some account whose linked user is named `name`. */
    method FindAccountByUsername(name: string) returns (r: Option<Id>)
      ensures r.Some? ==> r.value in accounts && accounts[r.value].user.Some?
                          && accounts[r.value].user.value.name == name
      ensures r.None? ==> forall id | id in accounts :: accounts[id].user.None? || accounts[id].user.value.name != name
    {
      if id :| id in accounts && accounts[id].user.Some? && accounts[id].user.value.name == name {
        r := Some(id);
      } else {
        r := None;
      }
    }

    /** `Admin.findByUsername(name)`: some admin whose linked user is named `name`. */
    method FindAdminByUsername(name: string) returns (r: Option<Id>)
      ensures r.Some? ==> r.value in admins && admins[r.value].user.Some?
                          && admins[r.value].user.value.name == name
      ensures r.None? ==> forall id | id in admins :: admins[id].user.None? || admins[id].user.value.name != name
    {
      if id :| id in admins && admins[id].user.Some? && admins[id].user.value.name == name {
        r := Some(id);
      } else {
        r := None;
      }
    }

    /** A username change (PUT /users/{id}, PUT /users/my): the user, when it exists, takes
        the new username and e-mail (and the new isActive, when one is given); then
        `Account.findOneAndUpdate` and `Admin.findOneAndUpdate` on `user.id` copy the new
        username into one linked account and one linked admin. */
    method SetIdentity(id: Id, username: string, email: string, isActive: Option<bool>)
      modifies this`users, this`accounts, this`admins
      ensures users == if id in old(users) then old(users)[id := WithIdentity(old(users)[id], username, email, isActive)]
                       else old(users)
      ensures AccountRenamed(old(accounts), accounts, id, username)
      ensures AdminRenamed(old(admins), admins, id, username)
      ensures old(Linked()) ==> Linked()
    {
      if id in users {
        var u := WithIdentity(users[id], username, email, isActive);
        if old(Linked()) {
          SameSlotPreserves(users, AccountUsers(accounts), AccountKey, id, u);
          SameSlotPreserves(users, AdminUsers(admins), AdminKey, id, u);
        }
        users := users[id := u];
      }
      RenameLinkedAccount(id, username);
      RenameLinkedAdmin(id, username);
    }

    /** `Account.findOneAndUpdate` on `user.id`; renaming keeps the link. */
    method RenameLinkedAccount(id: Id, name: string)
      modifies this`accounts
      ensures AccountRenamed(old(accounts), accounts, id, name)
      ensures LinkedBothWays(users, AccountUsers(old(accounts)), AccountKey) ==>
                LinkedBothWays(users, AccountUsers(accounts), AccountKey)
    {
      if a :| a in accounts && accounts[a].user.Some? && accounts[a].user.value.id == id {
        if LinkedBothWays(users, AccountUsers(accounts), AccountKey) {
          AccountUsersUpdate(accounts, a, accounts[a].(user := Some(UserRef(id, name))));
          RenamePreserves(users, AccountUsers(accounts), AccountKey, a, name);
        }
        accounts := accounts[a := accounts[a].(user := Some(UserRef(id, name)))];
      }
    }

    /** `Admin.findOneAndUpdate` on `user.id`; renaming keeps the link. */
    method RenameLinkedAdmin(id: Id, name: string)
      modifies this`admins
      ensures AdminRenamed(old(admins), admins, id, name)
      ensures LinkedBothWays(users, AdminUsers(old(admins)), AdminKey) ==>
                LinkedBothWays(users, AdminUsers(admins), AdminKey)
    {
      if a :| a in admins && admins[a].user.Some? && admins[a].user.value.id == id {
        if LinkedBothWays(users, AdminUsers(admins), AdminKey) {
          AdminUsersUpdate(admins, a, admins[a].(user := Some(UserRef(id, name))));
          RenamePreserves(users, AdminUsers(admins), AdminKey, a, name);
        }
        admins := admins[a := admins[a].(user := Some(UserRef(id, name)))];
      }
    }

    // ----------------------------------------------------------- session model

    /** `Session.create(userId, ip, userAgent)` with the fresh id and random key it
        generates; the plaintext key goes back to the caller only. */
    method CreateSession(id: Id, key: string, userId: Id, ip: string, userAgent: string, now: int)
      requires id !in sessions
      modifies this`sessions
      ensures sessions == old(sessions)[id := NewSession(userId, key, ip, userAgent, now)]
      ensures FindSessionByCredentials(sessions, id, key) == Some(sessions[id])
    {
      sessions := sessions[id := NewSession(userId, key, ip, userAgent, now)];
    }

    /** `session.updateLastActive()`: only that session's `lastActive` changes. */
    method UpdateLastActive(id: Id, now: int)
      requires id in sessions
      modifies this`sessions
      ensures sessions == old(sessions)[id := old(sessions)[id].(lastActive := Some(now))]
    {
      sessions := sessions[id := sessions[id].(lastActive := Some(now))];
    }

    /** `Session.deleteUserSessions(userId)`. */
    method DeleteUserSessions(userId: Id)
      modifies this`sessions
      ensures sessions == WithoutUserSessions(old(sessions), userId)
    {
      sessions := WithoutUserSessions(sessions, userId);
    }
  }
}

=== FILE: documents.dfy ===
/** The documents of the store (User, Session, AuthAttempt, Admin, AdminGroup, Account,
    Status) and the value-level behaviour of their models: role slots (`canPlayRole`,
    `linkAdmin`/`unlinkAdmin`, `linkAccount`/`unlinkAccount`), group membership and
    permission lookup. */
module Documents {
  import opened Wrappers
  import opened Crypto
  import opened Names

  /** A document id. Generated ids (24 hex digits) and slugs are never empty. */
  type Id = s: string | |s| > 0 witness "0"

  /** The root user, root admin and root group of the first-time setup; the routes refuse
      to edit them. */
  const RootUserId: Id := "000000000000000000000000"
  const RootAdminId: Id := "111111111111111111111111"
  const RootGroupId: Id := "root"
  const RootUsername := "root"

  /** The keys of `user.roles`. */
  const AdminKey := "admin"
  const AccountKey := "account"

  /** A pending e-mail verification or password reset: the hash of a key and an expiry
      in milliseconds. */
  datatype Token = Token(token: Digest, expires: int)

  /** What `user.roles.admin` / `user.roles.account` hold: the role's id and display name. */
  datatype RoleLink = RoleLink(id: Id, name: string)

  /** `user.roles`: a map from "admin" / "account" to the linked role. */
  type Roles = map<string, RoleLink>

  datatype User = User(
    username: string,
    email: string,
    password: Digest,
    isActive: bool,
    roles: Roles,
    verify: Option<Token>,
    resetPassword: Option<Token>)

  /** What `admin.user` / `account.user` hold: the linked user's id and username. */
  datatype UserRef = UserRef(id: Id, name: string)

  /** A login session; only the hash of its key is stored. */
  datatype Session = Session(
    userId: Id,
    keyHash: Digest,
    ip: string,
    userAgent: string,
    timeCreated: int,
    lastActive: Option<int>)

  /** A failed login. */
  datatype AuthAttempt = AuthAttempt(ip: string, username: string, timeCreated: int)

  /** An admin role: group memberships (group id to group name; a missing map is the
      empty map) and its own permission overrides. */
  datatype Admin = Admin(
    name: Name,
    user: Option<UserRef>,
    groups: map<Id, string>,
    permissions: map<string, bool>)

  datatype AdminGroup = AdminGroup(name: string, permissions: map<string, bool>)

  /** The admin who wrote a note or set a status: id and full name. */
  datatype Stamp = Stamp(id: Id, name: string)

  datatype NoteEntry = NoteEntry(data: string, adminCreated: Stamp, timeCreated: int)

  datatype StatusEntry = StatusEntry(id: Id, name: string, adminCreated: Stamp, timeCreated: int)

  /** `account.status`: the current status and its history. */
  datatype AccountStatus = AccountStatus(current: Option<StatusEntry>, log: seq<StatusEntry>)

  datatype Account = Account(
    name: Name,
    user: Option<UserRef>,
    notes: seq<NoteEntry>,
    status: AccountStatus)

  datatype Status = Status(pivot: string, name: string)

  /** The 404 message of every route that looks a status up. */
  const StatusNotFound := "Status not found."

  /** `Account.create(name)` / `Admin.create(name)`: a fresh role with no link. */
  function NewAccount(name: string): (a: Account)
    ensures a.user.None? && a.notes == [] && a.status.log == [] && a.status.current.None?
    ensures NoSpace(name) ==> FullName(a.name) == name
  {
    Account(NameAdapter(name), None, [], AccountStatus(None, []))
  }

  function NewAdmin(name: string): (a: Admin)
    ensures a.user.None? && a.groups == map[] && a.permissions == map[]
    ensures forall g :: !IsMemberOf(a, g)
    ensures NoSpace(name) ==> FullName(a.name) == name
  {
    Admin(NameAdapter(name), None, map[], map[])
  }

  // ---------------------------------------------------------------- object ids

  predicate IsHexDigit(c: char)
  {
    '0' <= c <= '9' || 'a' <= c <= 'f' || 'A' <= c <= 'F'
  }

  /** The strings the driver's `ObjectID` constructor (`_idClass` of the users, accounts,
      admins and sessions) accepts: any 12 characters (read as 12 raw bytes) or 24
      hexadecimal digits. On anything else it throws. */
  predicate ObjectIdText(s: string)
  {
    |s| == 12 || (|s| == 24 && forall i | 0 <= i < |s| :: IsHexDigit(s[i]))
  }

  /** Too short, too long, or 24 characters with one that is not a hex digit: refused. */
  lemma ObjectIdTextExamples()
    ensures ObjectIdText("000000000000000000000000") && ObjectIdText("abcdefghijkl")
    ensures !ObjectIdText("abc") && !ObjectIdText("00000000000000000000000g")
  {
    assert "00000000000000000000000g"[23] == 'g';
  }

  // ---------------------------------------------------------------- role slots

  /** `user.canPlayRole(role)`: the role key is present in `user.roles`; a user with no
      roles plays none. */
  predicate CanPlayRole(roles: Roles, role: string): (b: bool)
    ensures roles == map[] ==> !b
  {
    role in roles
  }

  /** `linkAdmin` / `linkAccount`: set one slot; the other slot is left alone. */
  function LinkRole(roles: Roles, key: string, link: RoleLink): (r: Roles)
    ensures CanPlayRole(r, key) && r[key] == link
    ensures forall k :: k != key ==> (k in r <==> k in roles)
    ensures forall k | k != key && k in roles :: r[k] == roles[k]
  {
    roles[key := link]
  }

  /** `unlinkAdmin` / `unlinkAccount`: clear one slot; the other slot is left alone. */
  function UnlinkRole(roles: Roles, key: string): (r: Roles)
    ensures !CanPlayRole(r, key)
    ensures forall k :: k != key ==> (k in r <==> k in roles)
    ensures forall k | k != key && k in roles :: r[k] == roles[k]
  {
    roles - {key}
  }

  /** The scenario of user.spec.js: a fresh user links an admin and an account, can then
      play both roles, and after unlinking both can play neither. */
  lemma LinkUnlinkScenario(adminLink: RoleLink, accountLink: RoleLink)
    ensures var linked := LinkRole(LinkRole(map[], AdminKey, adminLink), AccountKey, accountLink);
            CanPlayRole(linked, AdminKey) && CanPlayRole(linked, AccountKey)
            && var unlinked := UnlinkRole(UnlinkRole(linked, AdminKey), AccountKey);
               !CanPlayRole(unlinked, AdminKey) && !CanPlayRole(unlinked, AccountKey)
  {
  }

  /** The user of user.spec.js whose roles hold only an account link can play the
      account role and not the admin role. */
  lemma CanPlayRoleScenario(accountLink: RoleLink)
    ensures !CanPlayRole(map[AccountKey := accountLink], AdminKey)
    ensures CanPlayRole(map[AccountKey := accountLink], AccountKey)
  {
  }

  // ---------------------------------------------------------- admin permissions

  /** `admin.isMemberOf(group)`: the group is a key of `admin.groups`; an admin whose
      groups are missing belongs to none. */
  predicate IsMemberOf(admin: Admin, group: string): (b: bool)
    ensures admin.groups == map[] ==> !b
  {
    group in admin.groups
  }

  /** Some group the admin belongs to (and that exists) sets `key` to true. */
  predicate GroupGrants(admin: Admin, groups: map<Id, AdminGroup>, key: string)
  {
    exists g :: g in admin.groups && g in groups && key in groups[g].permissions && groups[g].permissions[key]
  }

  /** Some group the admin belongs to (and that exists) sets `key` to false. */
  predicate GroupDenies(admin: Admin, groups: map<Id, AdminGroup>, key: string)
  {
    exists g :: g in admin.groups && g in groups && key in groups[g].permissions && !groups[g].permissions[key]
  }

  /** `admin.hasPermissionTo(key)`, given the group documents. The contract states only what
      admin-manage.spec.js checks: an own `true` decides only for an admin in no group, and
      when the admin's own map and a group disagree, or two groups disagree, the answer is
      left open. The body lets the admin's own entry
      decide and then any granting group. */
  function HasPermissionTo(admin: Admin, groups: map<Id, AdminGroup>, key: string): (b: bool)
    ensures admin.permissions == map[] && admin.groups == map[] ==> !b
    ensures admin.groups == map[] && key in admin.permissions && admin.permissions[key] ==> b
    ensures key !in admin.permissions && GroupGrants(admin, groups, key) && !GroupDenies(admin, groups, key) ==> b
    ensures key !in admin.permissions && !GroupGrants(admin, groups, key) ==> !b
  {
    if key in admin.permissions then admin.permissions[key]
    else GroupGrants(admin, groups, key)
  }

  /** The group scenario of admin-manage.spec.js: with groups sales and support, a key that
      support sets to true is granted, a key that sales only sets to false is refused, and
      an admin in no group is refused both. */
  lemma PermissionScenario(name: Name)
    ensures
      var sales := AdminGroup("Sales", map["UNTAMED_WORLD" := false, "WORLD_UNTAMED" := true]);
      var support := AdminGroup("Support", map["SPACE_MADNESS" := true, "MADNESS_SPACE" := false]);
      var groups := map["sales" := sales, "support" := support];
      var a := Admin(name, None, map[], map[]);
      var b := Admin(name, None, map["sales" := "Sales", "support" := "Support"], map[]);
      && !HasPermissionTo(a, groups, "SPACE_MADNESS")
      && !HasPermissionTo(a, groups, "UNTAMED_WORLD")
      && HasPermissionTo(b, groups, "SPACE_MADNESS")
      && !HasPermissionTo(b, groups, "UNTAMED_WORLD")
  {
    var sales := AdminGroup("Sales", map["UNTAMED_WORLD" := false, "WORLD_UNTAMED" := true]);
    var support := AdminGroup("Support", map["SPACE_MADNESS" := true, "MADNESS_SPACE" := false]);
    var groups := map["sales" := sales, "support" := support];
    var b := Admin(name, None, map["sales" := "Sales", "support" := "Support"], map[]);
    assert "support" in b.groups && "support" in groups;
    assert groups["support"].permissions["SPACE_MADNESS"];
  }
}

=== FILE: hydrate.dfy ===
/** `user.hydrateRoles()`: the user instance loads the role documents its links name and
    keeps them in `_roles`, so that later calls return the cached object and do not read the
    store again. Only what server/modules/user/user.spec.js asserts is modelled: one entry
    per present link, of that link's kind, and the cache. */
module Hydrate {
  import opened Wrappers
  import opened Documents
  import opened Db

  /** An entry of `_roles`: the document `findById` gave for the link (nothing, when the
      linked id names no document). */
  datatype HydratedRole = AsAdmin(admin: Option<Admin>) | AsAccount(account: Option<Account>)

  /** `_roles` as loaded from the store: one entry per link, of the link's kind. */
  function Loaded(roles: Roles, admins: map<Id, Admin>, accounts: map<Id, Account>): (h: map<string, HydratedRole>)
    ensures h.Keys == roles.Keys * {AdminKey, AccountKey}
    ensures AdminKey in h ==>
              (h[AdminKey].AsAdmin?
               && (roles[AdminKey].id in admins ==> h[AdminKey].admin == Some(admins[roles[AdminKey].id])))
    ensures AccountKey in h ==>
              (h[AccountKey].AsAccount?
               && (roles[AccountKey].id in accounts ==> h[AccountKey].account == Some(accounts[roles[AccountKey].id])))
  {
    var admin: map<string, HydratedRole> :=
      if AdminKey in roles then
        var id := roles[AdminKey].id;
        map[AdminKey := AsAdmin(if id in admins then Some(admins[id]) else None)]
      else map[];
    var account: map<string, HydratedRole> :=
      if AccountKey in roles then
        var id := roles[AccountKey].id;
        map[AccountKey := AsAccount(if id in accounts then Some(accounts[id]) else None)]
      else map[];
    admin + account
  }

  /** Without links there is nothing to load. */
  lemma NoLinksNothingLoaded(admins: map<Id, Admin>, accounts: map<Id, Account>)
    ensures Loaded(map[], admins, accounts) == map[]
  {
    assert Loaded(map[], admins, accounts).Keys == {};
  }

  /** A user instance: its role links and its `_roles` cache, empty until the first call. */
  class UserInstance {
    const roles: Roles
    var cache: Option<map<string, HydratedRole>>

    constructor(roles: Roles)
      ensures this.roles == roles && cache.None?
    {
      this.roles := roles;
      cache := None;
    }

    /** The first call loads the roles from the store and caches them; every later call
        returns the cached object, whatever the store holds by then. */
    method HydrateRoles(st: Store) returns (h: map<string, HydratedRole>)
      modifies this`cache
      ensures old(cache).Some? ==> h == old(cache).value && cache == old(cache)
      ensures old(cache).None? ==> h == Loaded(roles, st.admins, st.accounts) && cache == Some(h)
    {
      if cache.Some? {
        return cache.value;
      }
      h := Loaded(roles, st.admins, st.accounts);
      cache := Some(h);
    }
  }

  /** Two calls give the same object even when the linked admin changed in between. */
  method HydrateTwice(st: Store, u: UserInstance, id: Id, renamed: Admin)
    returns (first: map<string, HydratedRole>, second: map<string, HydratedRole>)
    modifies u`cache, st`admins
    ensures second == first
    ensures old(u.cache).None? ==> first == Loaded(u.roles, old(st.admins), st.accounts)
  {
    first := u.HydrateRoles(st);
    st.admins := st.admins[id := renamed];
    second := u.HydrateRoles(st);
  }
}

=== FILE: links.dfy ===
/** The User <-> role link: each linked pair stores the other's id on both sides
    (`user.roles.account.id` / `account.user.id`, and the same for admins). This module
    states when the two sides agree, the conflict checks the link routes run, and that
    linking and unlinking keep the two sides in agreement. */
module Links {
  import opened Wrappers
  import opened Documents

  /** One kind of role document, seen from its `user` field: role id to linked user. */
  type RoleUsers = map<Id, Option<UserRef>>

  function AccountUsers(accounts: map<Id, Account>): (r: RoleUsers)
    ensures r.Keys == accounts.Keys
    ensures forall a | a in accounts :: r[a] == accounts[a].user
  {
    map a | a in accounts :: accounts[a].user
  }

  function AdminUsers(admins: map<Id, Admin>): (r: RoleUsers)
    ensures r.Keys == admins.Keys
    ensures forall a | a in admins :: r[a] == admins[a].user
  {
    map a | a in admins :: admins[a].user
  }

  /** Replacing one account replaces its entry in the projection. */
  lemma AccountUsersUpdate(accounts: map<Id, Account>, id: Id, a: Account)
    ensures AccountUsers(accounts[id := a]) == AccountUsers(accounts)[id := a.user]
  {
  }

  lemma AdminUsersUpdate(admins: map<Id, Admin>, id: Id, a: Admin)
    ensures AdminUsers(admins[id := a]) == AdminUsers(admins)[id := a.user]
  {
  }

  /** The link of kind `key` is stored consistently on both sides: every role's user links
      back to that role, and every user's role links back to that user. */
  ghost predicate LinkedBothWays(users: map<Id, User>, roleUsers: RoleUsers, key: string)
  {
    && (forall r | r in roleUsers && roleUsers[r].Some? ::
          roleUsers[r].value.id in users
          && key in users[roleUsers[r].value.id].roles
          && users[roleUsers[r].value.id].roles[key].id == r)
    && (forall u | u in users && key in users[u].roles ::
          users[u].roles[key].id in roleUsers
          && roleUsers[users[u].roles[key].id].Some?
          && roleUsers[users[u].roles[key].id].value.id == u)
  }

  /** The conflict messages, per role kind. */
  function UserLinkedMessage(key: string): string
  {
    if key == AdminKey then "User is linked to an admin. Unlink first."
    else "User is linked to an account. Unlink first."
  }

  function RoleLinkedMessage(key: string): string
  {
    if key == AdminKey then "Admin is linked to a user. Unlink first."
    else "Account is linked to a user. Unlink first."
  }

  /** The two conflict checks of the link routes, in their order: the user is linked to a
      different role of this kind; the role is linked to a different user. */
  function LinkConflict(user: User, userId: Id, roleUser: Option<UserRef>, roleId: Id, key: string): (e: Option<Error>)
    ensures e.None? <==>
              (key !in user.roles || user.roles[key].id == roleId)
              && (roleUser.None? || roleUser.value.id == userId)
    ensures key in user.roles && user.roles[key].id != roleId ==>
              e == Some(Conflict(UserLinkedMessage(key)))
    ensures (key !in user.roles || user.roles[key].id == roleId)
            && roleUser.Some? && roleUser.value.id != userId ==>
              e == Some(Conflict(RoleLinkedMessage(key)))
  {
    if key in user.roles && user.roles[key].id != roleId then Some(Conflict(UserLinkedMessage(key)))
    else if roleUser.Some? && roleUser.value.id != userId then Some(Conflict(RoleLinkedMessage(key)))
    else None
  }

  /** Re-linking a pair that is already linked passes both checks. */
  lemma RelinkPasses(users: map<Id, User>, roleUsers: RoleUsers, key: string, userId: Id, roleId: Id)
    requires LinkedBothWays(users, roleUsers, key)
    requires userId in users && roleId in roleUsers
    requires roleUsers[roleId].Some? && roleUsers[roleId].value.id == userId
    ensures LinkConflict(users[userId], userId, roleUsers[roleId], roleId, key).None?
  {
  }

  /** Linking a pair that passed the checks keeps both sides consistent. */
  lemma LinkPreserves(
    users: map<Id, User>, roleUsers: RoleUsers, key: string,
    userId: Id, roleId: Id, username: string, roleName: string)
    requires LinkedBothWays(users, roleUsers, key)
    requires userId in users && roleId in roleUsers
    requires LinkConflict(users[userId], userId, roleUsers[roleId], roleId, key).None?
    ensures LinkedBothWays(
              users[userId := users[userId].(roles := LinkRole(users[userId].roles, key, RoleLink(roleId, roleName)))],
              roleUsers[roleId := Some(UserRef(userId, username))],
              key)
  {
  }

  /** Unlinking a role from its user clears both sides and keeps them consistent. */
  lemma UnlinkPreserves(
    users: map<Id, User>, roleUsers: RoleUsers, key: string, roleId: Id)
    requires LinkedBothWays(users, roleUsers, key)
    requires roleId in roleUsers && roleUsers[roleId].Some?
    ensures roleUsers[roleId].value.id in users
    ensures
      var u := roleUsers[roleId].value.id;
      LinkedBothWays(
        users[u := users[u].(roles := UnlinkRole(users[u].roles, key))],
        roleUsers[roleId := None],
        key)
  {
  }

  /** Replacing a user by one with the same link of kind `key` (a link of the other kind,
      a new username, a new password...) keeps the links of kind `key` consistent. */
  lemma SameSlotPreserves(users: map<Id, User>, roleUsers: RoleUsers, key: string, userId: Id, user: User)
    requires LinkedBothWays(users, roleUsers, key)
    requires userId in users
    requires key in user.roles <==> key in users[userId].roles
    requires key in user.roles ==> user.roles[key] == users[userId].roles[key]
    ensures LinkedBothWays(users[userId := user], roleUsers, key)
  {
  }

  /** A new user with no link of kind `key` leaves the links of that kind consistent. */
  lemma AddUnlinkedUser(users: map<Id, User>, roleUsers: RoleUsers, key: string, userId: Id, user: User)
    requires LinkedBothWays(users, roleUsers, key)
    requires userId !in users && key !in user.roles
    ensures LinkedBothWays(users[userId := user], roleUsers, key)
  {
  }

  /** A new role with no linked user leaves the links consistent. */
  lemma AddUnlinkedRole(users: map<Id, User>, roleUsers: RoleUsers, key: string, roleId: Id)
    requires LinkedBothWays(users, roleUsers, key)
    requires roleId !in roleUsers
    ensures LinkedBothWays(users, roleUsers[roleId := None], key)
  {
  }

  /** Renaming the linked user recorded on a role (`user.name`) keeps the link. */
  lemma RenamePreserves(users: map<Id, User>, roleUsers: RoleUsers, key: string, roleId: Id, name: string)
    requires LinkedBothWays(users, roleUsers, key)
    requires roleId in roleUsers && roleUsers[roleId].Some?
    ensures LinkedBothWays(users, roleUsers[roleId := Some(UserRef(roleUsers[roleId].value.id, name))], key)
  {
  }
}

=== FILE: login.dfy ===
/** The routes of server/modules/login/routes.js: `/login` (throttle, credential check with
    attempt recording, session creation, credentials), `/login/forgot` and `/login/reset`.
    Randomness (the session id and key, the reset key) and the clock are parameters. */
module Login {
  import opened Wrappers
  import opened Crypto
  import opened Documents
  import opened Preware
  import opened Db
  import opened AuthAttempts

  const MaxAttempts := "Maximum number of auth attempts reached."
  const InvalidCredentials := "Credentials are invalid or account is inactive."

  /** A reset token lives 10000000 ms. */
  const ResetLifetime := 10000000

  /** The credentials `/login` signs: the role links of the user (without group
      memberships), the new session's id and plaintext key, and the user. */
  function LoginCredentials(uid: Id, u: User, sid: Id, key: string): (c: Credentials)
    ensures c.scope == u.roles.Keys
    ensures c.session == SessionRef(sid, key) && c.user == UserView(uid, u.username, u.isActive)
    ensures c.roles.admin.Some? <==> AdminKey in u.roles
    ensures c.roles.admin.Some? ==> c.roles.admin.value.id == u.roles[AdminKey].id && c.roles.admin.value.groups == map[]
    ensures c.roles.account.Some? <==> AccountKey in u.roles
    ensures c.roles.account.Some? ==> c.roles.account.value == u.roles[AccountKey]
    ensures c.verify.None?
  {
    var admin := if AdminKey in u.roles then Some(AdminRole(u.roles[AdminKey].id, u.roles[AdminKey].name, map[])) else None;
    var account := if AccountKey in u.roles then Some(u.roles[AccountKey]) else None;
    Credentials(u.roles.Keys, CredentialRoles(admin, account), SessionRef(sid, key), UserView(uid, u.username, u.isActive), None)
  }

  /** The credentials `/login` issues carry no group memberships, so every group guard,
      the root guard included, refuses them; the root user is no exception. */
  lemma LoginCredentialsFailGroupGuards(uid: Id, u: User, sid: Id, key: string, spec: GroupSpec)
    ensures RequireAdminGroup(spec, LoginCredentials(uid, u, sid, key)) == Stop(Forbidden(MissingGroup))
    ensures RequireRoot(LoginCredentials(uid, u, sid, key)).Stop?
  {
    NoAdminGroupsRefused(spec, LoginCredentials(uid, u, sid, key));
  }

  /** They carry no `verify` record either, so the verified-e-mail guard passes them even
      for a user whose e-mail is still unverified. */
  lemma LoginCredentialsPassVerifiedGuard(uid: Id, u: User, sid: Id, key: string)
    requires u.verify.Some?
    ensures RequireVerifiedUser(LoginCredentials(uid, u, sid, key)) == Continue
  {
  }

  /** POST /login. `hours` is `durationOfBlocking`; `sid` and `key` are the fresh session's
      id and random key. */
  method LoginRoute(st: Store, ip: string, username: string, password: string, userAgent: string,
                    now: int, hours: int, sid: Id, key: string) returns (r: Result<Credentials>)
    requires ip != "" && username != ""
    requires sid !in st.sessions
    modifies st`attempts, st`sessions
    // the throttle runs first and refuses without recording anything
    ensures AbuseDetected(old(st.attempts), ip, username, now, hours) ==>
              r == Err(BadRequest(MaxAttempts))
              && st.attempts == old(st.attempts) && st.sessions == old(st.sessions)
    // a failed credential check records exactly one attempt and creates no session
    ensures !AbuseDetected(old(st.attempts), ip, username, now, hours) && r.Err? ==>
              r.error == BadRequest(InvalidCredentials)
              && st.attempts == old(st.attempts) + [AuthAttempt(ip, username, now)]
              && st.sessions == old(st.sessions)
    // a success creates exactly one session for a user whose login and password match
    ensures r.Ok? ==>
              !AbuseDetected(old(st.attempts), ip, username, now, hours)
              && st.attempts == old(st.attempts)
              && exists uid | uid in st.users && Store.LoginNames(st.users[uid], username)
                              && Matches(password, st.users[uid].password) ::
                   st.sessions == old(st.sessions)[sid := NewSession(uid, key, ip, userAgent, now)]
                   && r.value == LoginCredentials(uid, st.users[uid], sid, key)
    ensures r.Ok? ==> FindSessionByCredentials(st.sessions, r.value.session.id, r.value.session.key).Some?
    ensures (!AbuseDetected(old(st.attempts), ip, username, now, hours)
             && forall uid | uid in st.users :: !Store.LoginNames(st.users[uid], username)) ==> r.Err?
    ensures !AbuseDetected(old(st.attempts), ip, username, now, hours) ==>
              forall uid | uid in st.users && Store.LoginNames(st.users[uid], username) ::
                ((forall other | other in st.users && Store.LoginNames(st.users[other], username) :: other == uid)
                 && Matches(password, st.users[uid].password)) ==> r.Ok?
  {
    if AbuseDetected(st.attempts, ip, username, now, hours) {
      return Err(BadRequest(MaxAttempts));
    }
    var found := st.FindUserByCredentials(username, password);
    if found.None? {
      RecordAttempt(st, ip, username, now);
      return Err(BadRequest(InvalidCredentials));
    }
    var uid := found.value;
    st.CreateSession(sid, key, uid, ip, userAgent, now);
    r := Ok(LoginCredentials(uid, st.users[uid], sid, key));
  }

  /** POST /login/forgot: an unknown e-mail succeeds and changes nothing; a known one gets a
      reset token holding the hash of `key`, expiring `ResetLifetime` ms from now. */
  method Forgot(st: Store, email: string, key: string, now: int) returns (r: Result<string>)
    modifies st`users
    ensures r == Ok(Success)
    ensures (forall id | id in old(st.users) :: old(st.users)[id].email != email) ==> st.users == old(st.users)
    ensures (exists id | id in old(st.users) :: old(st.users)[id].email == email) ==>
              exists id | id in old(st.users) && old(st.users)[id].email == email ::
                st.users == old(st.users)[id := old(st.users)[id].(resetPassword := Some(Token(Hash(key), now + ResetLifetime)))]
  {
    var found := st.FindUser((u: User) => u.email == email);
    if found.Some? {
      var id := found.value;
      st.users := st.users[id := st.users[id].(resetPassword := Some(Token(GenerateKeyHash(key).hash, now + ResetLifetime)))];
    }
    r := Ok(Success);
  }

  /** The user `/login/reset` looks for: that e-mail, with a reset token still valid. */
  predicate ResetPending(u: User, email: string, now: int)
  {
    u.email == email && u.resetPassword.Some? && u.resetPassword.value.expires > now
  }

  /** POST /login/reset: a pending reset whose key matches replaces the password hash and
      drops the token; anything else is 400 with no change. */
  method Reset(st: Store, email: string, key: string, password: string, now: int) returns (r: Result<string>)
    modifies st`users
    ensures r.Err? ==> r.error == BadRequest(InvalidEmailOrKey) && st.users == old(st.users)
    ensures r.Ok? ==>
              r.value == Success
              && exists id | id in old(st.users) && ResetPending(old(st.users)[id], email, now)
                             && Matches(key, old(st.users)[id].resetPassword.value.token) ::
                   st.users == old(st.users)[id := old(st.users)[id].(password := Hash(password), resetPassword := None)]
    ensures (forall id | id in old(st.users) && ResetPending(old(st.users)[id], email, now) ::
               !Matches(key, old(st.users)[id].resetPassword.value.token)) ==> r.Err?
    ensures ((exists id | id in old(st.users) :: ResetPending(old(st.users)[id], email, now))
             && (forall id | id in old(st.users) && ResetPending(old(st.users)[id], email, now) ::
                   Matches(key, old(st.users)[id].resetPassword.value.token))) ==> r.Ok?
  {
    var found := st.FindUser((u: User) => ResetPending(u, email, now));
    if found.None? {
      return Err(BadRequest(InvalidEmailOrKey));
    }
    var id := found.value;
    if !Matches(key, st.users[id].resetPassword.value.token) {
      return Err(BadRequest(InvalidEmailOrKey));
    }
    st.users := st.users[id := st.users[id].(password := Hash(password), resetPassword := None)];
    r := Ok(Success);
  }

  /** The reset flow end to end: after `/login/forgot` with key k, `/login/reset` with k
      before expiry installs the new password and consumes the token. */
  method ForgotThenReset(st: Store, email: string, key: string, password: string, now: int)
    returns (r: Result<string>)
    requires exists id | id in st.users :: st.users[id].email == email
    requires forall id, other | id in st.users && other in st.users && st.users[id].email == email
                                && st.users[other].email == email :: id == other
    modifies st`users
    ensures r == Ok(Success)
    ensures exists id | id in st.users && st.users[id].email == email ::
              Matches(password, st.users[id].password) && st.users[id].resetPassword.None?
  {
    ghost var before := st.users;
    var _ := Forgot(st, email, key, now);
    ghost var id :| id in before && before[id].email == email
                    && st.users == before[id := before[id].(resetPassword := Some(Token(Hash(key), now + ResetLifetime)))];
    assert ResetPending(st.users[id], email, now);
    ghost var mid := st.users;
    r := Reset(st, email, key, password, now);
    ghost var j :| j in mid && ResetPending(mid[j], email, now)
                   && st.users == mid[j := mid[j].(password := Hash(password), resetPassword := None)];
    assert j == id;
    assert st.users[id].email == email && Matches(password, st.users[id].password);
  }
}

=== FILE: logout.dfy ===
/** DELETE /logout (server/modules/logout/routes.js). Authentication is optional on this
    route: without credentials it only acknowledges. */
module Logout {
  import opened Wrappers
  import opened Documents
  import opened Preware
  import opened Db

  /** The current session, and no other, is removed; the reply is the same whether or not
      it still existed. */
  method LogoutRoute(st: Store, creds: Option<Credentials>) returns (r: Result<string>)
    modifies st`sessions
    ensures r == Ok(Success)
    ensures creds.None? ==> st.sessions == old(st.sessions)
    ensures creds.Some? ==> st.sessions == old(st.sessions) - {creds.value.session.id}
  {
    if creds.Some? {
      st.sessions := st.sessions - {creds.value.session.id};
    }
    r := Ok(Success);
  }

  /** Logging out ends the session: its id and key no longer validate. */
  method LogoutInvalidates(st: Store, creds: Credentials) returns (r: Result<string>)
    modifies st`sessions
    ensures FindSessionByCredentials(st.sessions, creds.session.id, creds.session.key).None?
  {
    r := LogoutRoute(st, Some(creds));
  }
}

=== FILE: names.dfy ===
/** `nameAdapter` and `fullName`, shared by the Admin and Account models: a display name
    is split into a first and a last part at the first space, and joined back with one
    space when the last part is not empty. Middle names and trimming are not modelled. */
module Names {

  datatype Name = Name(first: string, last: string)

  /** A single word: no space in it. */
  predicate NoSpace(s: string)
  {
    forall i | 0 <= i < |s| :: s[i] != ' '
  }

  /** Index of the first space in `s`, or `|s|` when there is none. */
  function FirstSpace(s: string): (k: nat)
    ensures k <= |s|
    ensures NoSpace(s[..k])
    ensures k < |s| ==> s[k] == ' '
  {
    if s == [] then 0
    else if s[0] == ' ' then 0
    else
      var k := 1 + FirstSpace(s[1..]);
      assert s[..k] == [s[0]] + s[1..][..k - 1];
      k
  }

  /** The first space is unique: a space that only word characters precede is it. */
  lemma FirstSpaceAt(s: string, k: nat)
    requires k < |s| && s[k] == ' ' && NoSpace(s[..k])
    ensures FirstSpace(s) == k
  {
  }

  /** `nameAdapter(name)`: 'Steve' gives ('Steve', ''), 'Ren Höek' gives ('Ren', 'Höek'). */
  function NameAdapter(full: string): (n: Name)
    ensures NoSpace(full) ==> n == Name(full, "")
    ensures forall k | 0 <= k < |full| && full[k] == ' ' && NoSpace(full[..k]) ::
              n == Name(full[..k], full[k + 1..])
  {
    var k := FirstSpace(full);
    if k == |full| then Name(full, "")
    else
      assert forall j | 0 <= j < |full| && full[j] == ' ' && NoSpace(full[..j]) :: j == k by {
        forall j | 0 <= j < |full| && full[j] == ' ' && NoSpace(full[..j]) ensures j == k {
          FirstSpaceAt(full, j);
        }
      }
      Name(full[..k], full[k + 1..])
  }

  /** `fullName()`: the first part alone when the last part is empty, otherwise both
      parts joined by one space. */
  function FullName(n: Name): (r: string)
    ensures NoSpace(n.first) && NoSpace(n.last) ==> NameAdapter(r) == n
  {
    if n.last == "" then n.first
    else
      var r := n.first + " " + n.last;
      assert r[..|n.first|] == n.first && r[|n.first| + 1..] == n.last;
      r
  }

  /** One word survives the split and the join unchanged. */
  lemma OneWordRoundTrip(word: string)
    requires NoSpace(word)
    ensures NameAdapter(word) == Name(word, "")
    ensures FullName(NameAdapter(word)) == word
  {
  }

  /** Two words are split into first and last, and joined back to the same text. */
  lemma {:induction false} TwoWordsRoundTrip(first: string, last: string)
    requires NoSpace(first) && NoSpace(last) && last != ""
    ensures NameAdapter(first + " " + last) == Name(first, last)
    ensures FullName(NameAdapter(first + " " + last)) == first + " " + last
  {
    var full := first + " " + last;
    var k := |first|;
    assert full[..k] == first;
    assert full[k] == ' ';
    assert full[k + 1..] == last;
  }

  /** The cases admin-manage.spec.js and account.spec.js check. */
  lemma AdapterExamples()
    ensures NameAdapter("Steve") == Name("Steve", "")
    ensures NameAdapter("Ren Höek") == Name("Ren", "Höek")
    ensures FullName(NameAdapter("Stan")) == "Stan"
    ensures FullName(NameAdapter("Ren Höek")) == "Ren Höek"
  {
    OneWordRoundTrip("Steve");
    OneWordRoundTrip("Stan");
    TwoWordsRoundTrip("Ren", "Höek");
    assert "Ren" + " " + "Höek" == "Ren Höek";
  }
}

=== FILE: preware.dfy ===
/** The route guards of server/preware.js, as predicates over the request's credentials. */
module Preware {
  import opened Wrappers
  import opened Documents

  /** `credentials.roles.admin` as the guards read it: the admin's id, display name and
      group memberships. A missing `groups` map reads as the empty map: neither has a key. */
  datatype AdminRole = AdminRole(id: Id, name: string, groups: map<Id, string>)

  datatype CredentialRoles = CredentialRoles(admin: Option<AdminRole>, account: Option<RoleLink>)

  /** `credentials.session`: the session id and its plaintext key. */
  datatype SessionRef = SessionRef(id: Id, key: string)

  /** `credentials.user`. */
  datatype UserView = UserView(id: Id, username: string, isActive: bool)

  /** The authenticated credentials of a request. */
  datatype Credentials = Credentials(
    scope: set<string>,
    roles: CredentialRoles,
    session: SessionRef,
    user: UserView,
    verify: Option<Token>)

  /** The outcome of a guard: continue, or stop with an error. */
  datatype Outcome = Continue | Stop(error: Error)

  const MissingGroup := "Missing required group membership."
  const NotVerified := "Email is not verified."
  const RootRefused := "Not permitted for the root user."

  /** `requireAdminGroup` takes one group name or a list of them. */
  datatype GroupSpec = OneGroup(group: string) | GroupList(groups: seq<string>)

  /** A single group name is turned into a one-element list before checking. */
  function Normalize(spec: GroupSpec): (gs: seq<string>)
    ensures spec.OneGroup? ==> gs == [spec.group]
    ensures spec.GroupList? ==> gs == spec.groups
  {
    match spec
    case OneGroup(g) => [g]
    case GroupList(gs) => gs
  }

  /** The credentials carry an admin role that belongs to one of the groups. */
  predicate InSomeGroup(creds: Credentials, groups: seq<string>)
  {
    creds.roles.admin.Some? && exists g :: g in creds.roles.admin.value.groups && g in groups
  }

  /** `requireAdminGroup(groups)`: passes iff the admin role of the credentials has a group
      among the required ones; otherwise 403. */
  function RequireAdminGroup(spec: GroupSpec, creds: Credentials): (o: Outcome)
    ensures o.Continue? <==> InSomeGroup(creds, Normalize(spec))
    ensures o.Stop? ==> o.error == Forbidden(MissingGroup)
  {
    var groups := Normalize(spec);
    if creds.roles.admin.Some? && exists g :: g in creds.roles.admin.value.groups && g in groups
    then Continue
    else Stop(Forbidden(MissingGroup))
  }

  /** The root-group guard that every root-only route runs. */
  function RequireRoot(creds: Credentials): (o: Outcome)
    ensures o.Continue? <==> creds.roles.admin.Some? && RootGroupId in creds.roles.admin.value.groups
    ensures o.Stop? ==> o.error == Forbidden(MissingGroup)
  {
    var o := RequireAdminGroup(OneGroup(RootGroupId), creds);
    assert o.Continue? ==> RootGroupId in creds.roles.admin.value.groups;
    o
  }

  /** A single group name and the one-element list with it guard alike. */
  lemma OneGroupIsListOfOne(g: string, creds: Credentials)
    ensures RequireAdminGroup(OneGroup(g), creds) == RequireAdminGroup(GroupList([g]), creds)
  {
  }

  /** Membership in any one of several required groups is enough. */
  lemma AnyRequiredGroupSuffices(groups: seq<string>, g: Id, creds: Credentials)
    requires g in groups
    requires creds.roles.admin.Some? && g in creds.roles.admin.value.groups
    ensures RequireAdminGroup(GroupList(groups), creds) == Continue
  {
  }

  /** Without an admin role, or with an admin role in no group, every group guard refuses. */
  lemma NoAdminGroupsRefused(spec: GroupSpec, creds: Credentials)
    requires creds.roles.admin.None? || creds.roles.admin.value.groups == map[]
    ensures RequireAdminGroup(spec, creds) == Stop(Forbidden(MissingGroup))
  {
  }

  /** `requireVerifiedUser`: refuses exactly the credentials that carry a `verify` record. */
  function RequireVerifiedUser(creds: Credentials): (o: Outcome)
    ensures o.Continue? <==> creds.verify.None?
    ensures o.Stop? ==> o.error == Forbidden(NotVerified)
  {
    if creds.verify.Some? then Stop(Forbidden(NotVerified)) else Continue
  }

  /** `requireNotRootUser`: refuses exactly the username 'root'. */
  function RequireNotRootUser(creds: Credentials): (o: Outcome)
    ensures o.Continue? <==> creds.user.username != RootUsername
    ensures o.Stop? ==> o.error == Forbidden(RootRefused)
  {
    if creds.user.username == RootUsername then Stop(Forbidden(RootRefused)) else Continue
  }
}

=== FILE: session_admin.dfy ===
/** The root-only session routes (server/modules/session/admin/routes.js): list, get and
    delete any session by id. */
module SessionAdmin {
  import opened Wrappers
  import opened Documents
  import opened Preware
  import opened Db

  const SessionNotFound := "Session not found."

  /** GET /sessions: every session, for root-group admins only; nothing changes. */
  method ListSessions(st: Store, creds: Credentials) returns (r: Result<map<Id, Session>>)
    ensures r.Err? <==> RequireRoot(creds).Stop?
    ensures r.Err? ==> r.error == Forbidden(MissingGroup)
    ensures r.Ok? ==> r.value == st.sessions
  {
    var gate := RequireRoot(creds);
    if gate.Stop? {
      return Err(gate.error);
    }
    r := Ok(st.sessions);
  }

  /** GET /sessions/{id}. */
  method GetSession(st: Store, creds: Credentials, id: string) returns (r: Result<Session>)
    ensures RequireRoot(creds).Stop? ==> r == Err(Forbidden(MissingGroup))
    ensures RequireRoot(creds).Continue? && id !in st.sessions ==> r == Err(NotFound(SessionNotFound))
    ensures RequireRoot(creds).Continue? && id in st.sessions ==> r == Ok(st.sessions[id])
  {
    var gate := RequireRoot(creds);
    if gate.Stop? {
      return Err(gate.error);
    }
    if id !in st.sessions {
      return Err(NotFound(SessionNotFound));
    }
    r := Ok(st.sessions[id]);
  }

  /** DELETE /sessions/{id}: exactly that session goes; a miss changes nothing. */
  method DeleteSession(st: Store, creds: Credentials, id: string) returns (r: Result<string>)
    modifies st`sessions
    ensures RequireRoot(creds).Stop? ==> r == Err(Forbidden(MissingGroup)) && st.sessions == old(st.sessions)
    ensures RequireRoot(creds).Continue? && id !in old(st.sessions) ==>
              r == Err(NotFound(SessionNotFound)) && st.sessions == old(st.sessions)
    ensures RequireRoot(creds).Continue? && id in old(st.sessions) ==>
              r == Ok(Success) && st.sessions == old(st.sessions) - {id}
  {
    var gate := RequireRoot(creds);
    if gate.Stop? {
      return Err(gate.error);
    }
    if id !in st.sessions {
      return Err(NotFound(SessionNotFound));
    }
    st.sessions := st.sessions - {id};
    r := Ok(Success);
  }
}

=== FILE: sessions.dfy ===
/** The caller's own sessions (server/modules/session/routes.js): list them, and delete one
    that is not the session of the current request. */
module Sessions {
  import opened Wrappers
  import opened Documents
  import opened Preware
  import opened Db

  const CurrentSession := "Cannot destroy your current session. Also see `/logout`."

  /** GET /sessions/my: exactly the sessions of the calling user; nothing changes. */
  method MySessions(st: Store, creds: Credentials) returns (r: map<Id, Session>)
    ensures forall s :: s in r <==> s in st.sessions && st.sessions[s].userId == creds.user.id
    ensures forall s | s in r :: r[s] == st.sessions[s]
  {
    r := SessionsOf(st.sessions, creds.user.id);
  }

  /** DELETE /sessions/my/{id}: the current session is refused; an id that is no ObjectId
      makes `ObjectID` throw, which hapi answers with a 500; otherwise the session with that
      id goes if, and only if, it belongs to the caller, and the reply is the same either
      way. */
  method DeleteMySession(st: Store, creds: Credentials, id: string) returns (r: Result<string>)
    modifies st`sessions
    ensures id == creds.session.id ==> r == Err(BadRequest(CurrentSession))
    ensures id != creds.session.id && !ObjectIdText(id) ==> r == Err(InternalError(ServerError))
    ensures id != creds.session.id && ObjectIdText(id) ==> r == Ok(Success)
    ensures r.Err? ==> st.sessions == old(st.sessions)
    ensures r.Ok? && id in old(st.sessions) && old(st.sessions)[id].userId == creds.user.id ==>
              st.sessions == old(st.sessions) - {id}
    ensures !(id in old(st.sessions) && old(st.sessions)[id].userId == creds.user.id) ==> st.sessions == old(st.sessions)
    // so no other user's session is ever removed, and at most one session goes
    ensures forall s | s in old(st.sessions) && old(st.sessions)[s].userId != creds.user.id ::
              s in st.sessions && st.sessions[s] == old(st.sessions)[s]
    ensures st.sessions.Keys <= old(st.sessions).Keys && old(st.sessions).Keys - st.sessions.Keys <= {id}
  {
    if id == creds.session.id {
      return Err(BadRequest(CurrentSession));
    }
    if !ObjectIdText(id) {
      return Err(InternalError(ServerError));
    }
    if id in st.sessions && st.sessions[id].userId == creds.user.id {
      st.sessions := st.sessions - {id};
    }
    r := Ok(Success);
  }
}

=== FILE: signup.dfy ===
/** The routes of server/modules/signup/routes.js: `/signup` (uniqueness checks, a new
    account and user linked both ways, a verification token, a session), `/signup/verify`
    and `/signup/resend-email`. The fresh ids and random keys are parameters; the
    welcome and verification mails send nothing in the model. */
module Signup {
  import opened Wrappers
  import opened Crypto
  import opened Names
  import opened Documents
  import opened Links
  import opened Db
  import opened Preware

  /** The verification token expires 3600 ms after it is issued. */
  const VerifyLifetime := 3600

  /** The part of the new user the reply exposes: no password hash. */
  datatype UserSummary = UserSummary(id: Id, username: string, email: string, roles: Roles)

  datatype SignupReply = SignupReply(user: UserSummary, session: SessionRef)

  /** The account `/signup` stores: a fresh account linked to the new user. */
  function SignupAccount(name: string, userId: Id, username: string): (a: Account)
    ensures a.user == Some(UserRef(userId, username))
    ensures a.notes == [] && a.status == AccountStatus(None, [])
  {
    NewAccount(name).(user := Some(UserRef(userId, username)))
  }

  /** The user `/signup` stores: linked to the new account under its full name, with a
      verification token for `verifyKey`. */
  function SignupUser(username: string, password: string, email: string, name: string,
                      accountId: Id, verifyKey: string, now: int): (u: User)
    ensures u.username == username && u.email == email && u.isActive
    ensures Matches(password, u.password)
    ensures u.roles == map[AccountKey := RoleLink(accountId, FullName(NewAccount(name).name))]
    ensures u.verify.Some? && Matches(verifyKey, u.verify.value.token) && u.verify.value.expires == now + VerifyLifetime
  {
    var u := NewUser(username, password, email, Some(Token(GenerateKeyHash(verifyKey).hash, now + VerifyLifetime)));
    u.(roles := LinkRole(u.roles, AccountKey, RoleLink(accountId, FullName(NewAccount(name).name))))
  }

  /** POST /signup. A taken username, then a taken e-mail, is 409 with nothing created;
      otherwise one account, one user linked to it both ways, and one session. */
  method SignupRoute(st: Store, name: string, email: string, username: string, password: string,
                     verifyKey: string, accountId: Id, userId: Id, sid: Id, sessionKey: string,
                     ip: string, userAgent: string, now: int) returns (r: Result<SignupReply>)
    requires accountId !in st.accounts && userId !in st.users && sid !in st.sessions
    modifies st`users, st`accounts, st`sessions
    ensures r.Err? <==> IdentityConflict(old(st.users), username, email, None).Some?
    ensures r.Err? ==>
              r.error == IdentityConflict(old(st.users), username, email, None).value
              && st.users == old(st.users) && st.accounts == old(st.accounts) && st.sessions == old(st.sessions)
    ensures r.Ok? ==>
              && st.accounts == old(st.accounts)[accountId := SignupAccount(name, userId, username)]
              && st.users == old(st.users)[userId := SignupUser(username, password, email, name, accountId, verifyKey, now)]
              && st.sessions == old(st.sessions)[sid := NewSession(userId, sessionKey, ip, userAgent, now)]
              && r.value == SignupReply(UserSummary(userId, username, email, st.users[userId].roles), SessionRef(sid, sessionKey))
    ensures old(st.Linked()) ==> st.Linked()
    ensures UniqueLogins(old(st.users)) ==> UniqueLogins(st.users)
  {
    var conflict := IdentityConflict(st.users, username, email, None);
    if conflict.Some? {
      return Err(conflict.value);
    }
    ghost var users0 := st.users;
    var account := NewAccount(name);
    var user := NewUser(username, password, email, Some(Token(GenerateKeyHash(verifyKey).hash, now + VerifyLifetime)));
    var roleName := FullName(account.name);
    // create both documents, then link each to the other
    if old(st.Linked()) {
      FreshPairLinks(st.users, st.accounts, st.admins, userId, user, accountId, account, username, roleName);
    }
    st.accounts := st.accounts[accountId := account.(user := Some(UserRef(userId, username)))];
    st.users := st.users[userId := user.(roles := LinkRole(user.roles, AccountKey, RoleLink(accountId, roleName)))];
    st.CreateSession(sid, sessionKey, userId, ip, userAgent, now);
    r := Ok(SignupReply(UserSummary(userId, username, email, st.users[userId].roles), SessionRef(sid, sessionKey)));
    if UniqueLogins(users0) {
      NoConflictKeepsUnique(users0, userId, None, st.users[userId]);
    }
  }

  /** Creating an unlinked user and an unlinked account under fresh ids and linking them to
      each other keeps both kinds of link consistent. */
  lemma FreshPairLinks(users: map<Id, User>, accounts: map<Id, Account>, admins: map<Id, Admin>,
                       userId: Id, user: User, accountId: Id, account: Account, username: string, roleName: string)
    requires LinkedBothWays(users, AccountUsers(accounts), AccountKey)
    requires LinkedBothWays(users, AdminUsers(admins), AdminKey)
    requires userId !in users && accountId !in accounts
    requires user.roles == map[] && account.user.None?
    ensures var users' := users[userId := user.(roles := LinkRole(user.roles, AccountKey, RoleLink(accountId, roleName)))];
            var accounts' := accounts[accountId := account.(user := Some(UserRef(userId, username)))];
            LinkedBothWays(users', AccountUsers(accounts'), AccountKey)
            && LinkedBothWays(users', AdminUsers(admins), AdminKey)
  {
    AddUnlinkedUser(users, AccountUsers(accounts), AccountKey, userId, user);
    AddUnlinkedUser(users, AdminUsers(admins), AdminKey, userId, user);
    var users1 := users[userId := user];
    AccountUsersUpdate(accounts, accountId, account);
    AddUnlinkedRole(users1, AccountUsers(accounts), AccountKey, accountId);
    var accounts1 := accounts[accountId := account];
    LinkPreserves(users1, AccountUsers(accounts1), AccountKey, userId, accountId, username, roleName);
    AccountUsersUpdate(accounts1, accountId, account.(user := Some(UserRef(userId, username))));
    assert accounts1[accountId := account.(user := Some(UserRef(userId, username)))]
        == accounts[accountId := account.(user := Some(UserRef(userId, username)))];
    var linked := user.(roles := LinkRole(user.roles, AccountKey, RoleLink(accountId, roleName)));
    SameSlotPreserves(users1, AdminUsers(admins), AdminKey, userId, linked);
    assert users1[userId := linked] == users[userId := linked];
  }

  /** The user `/signup/verify` looks for: that e-mail, with a verification token still valid. */
  predicate VerifyPending(u: User, email: string, now: int)
  {
    u.email == email && u.verify.Some? && u.verify.value.expires > now
  }

  /** POST /signup/verify: a pending verification whose key matches is removed; anything else
      is 400 with no change. */
  method VerifyEmail(st: Store, email: string, key: string, now: int) returns (r: Result<string>)
    modifies st`users
    ensures r.Err? ==> r.error == BadRequest(InvalidEmailOrKey) && st.users == old(st.users)
    ensures r.Ok? ==>
              r.value == Success
              && exists id | id in old(st.users) && VerifyPending(old(st.users)[id], email, now)
                             && Matches(key, old(st.users)[id].verify.value.token) ::
                   st.users == old(st.users)[id := old(st.users)[id].(verify := None)]
    ensures (forall id | id in old(st.users) && VerifyPending(old(st.users)[id], email, now) ::
               !Matches(key, old(st.users)[id].verify.value.token)) ==> r.Err?
    ensures ((exists id | id in old(st.users) :: VerifyPending(old(st.users)[id], email, now))
             && (forall id | id in old(st.users) && VerifyPending(old(st.users)[id], email, now) ::
                   Matches(key, old(st.users)[id].verify.value.token))) ==> r.Ok?
  {
    var found := st.FindUser((u: User) => VerifyPending(u, email, now));
    if found.None? {
      return Err(BadRequest(InvalidEmailOrKey));
    }
    var id := found.value;
    if !Matches(key, st.users[id].verify.value.token) {
      return Err(BadRequest(InvalidEmailOrKey));
    }
    st.users := st.users[id := st.users[id].(verify := None)];
    r := Ok(Success);
  }

  /** The user `/signup/resend-email` looks for: that e-mail, with a verification token that
      has already expired. */
  predicate VerifyExpired(u: User, email: string, now: int)
  {
    u.email == email && u.verify.Some? && u.verify.value.expires < now
  }

  /** POST /signup/resend-email: succeeds always; only a user whose token has expired gets a
      new one, for `key`. The route sets no `auth` option, so it runs under the server's
      default strategy and only for an authenticated request; without one hapi answers 401
      before this runs. */
  method ResendEmail(st: Store, email: string, key: string, now: int) returns (r: Result<string>)
    modifies st`users
    ensures r == Ok(Success)
    ensures (forall id | id in old(st.users) :: !VerifyExpired(old(st.users)[id], email, now)) ==>
              st.users == old(st.users)
    ensures (exists id | id in old(st.users) :: VerifyExpired(old(st.users)[id], email, now)) ==>
              exists id | id in old(st.users) && VerifyExpired(old(st.users)[id], email, now) ::
                st.users == old(st.users)[id := old(st.users)[id].(verify := Some(Token(Hash(key), now + VerifyLifetime)))]
  {
    var found := st.FindUser((u: User) => VerifyExpired(u, email, now));
    if found.Some? {
      var id := found.value;
      st.users := st.users[id := st.users[id].(verify := Some(Token(GenerateKeyHash(key).hash, now + VerifyLifetime)))];
    }
    r := Ok(Success);
  }

  /** Signing up and then verifying with the mailed key before it expires succeeds and
      leaves the new user verified. */
  method SignupThenVerify(st: Store, name: string, email: string, username: string, password: string,
                          verifyKey: string, accountId: Id, userId: Id, sid: Id, sessionKey: string,
                          ip: string, userAgent: string, now: int, later: int) returns (r: Result<string>)
    requires accountId !in st.accounts && userId !in st.users && sid !in st.sessions
    requires IdentityConflict(st.users, username, email, None).None?
    requires later < now + VerifyLifetime
    modifies st`users, st`accounts, st`sessions
    ensures r == Ok(Success)
    ensures userId in st.users && st.users[userId].verify.None?
  {
    var s := SignupRoute(st, name, email, username, password, verifyKey, accountId, userId, sid, sessionKey,
                         ip, userAgent, now);
    ghost var mid := st.users;
    assert forall id | id in mid && id != userId :: mid[id].email != email;
    assert VerifyPending(mid[userId], email, later);
    r := VerifyEmail(st, email, verifyKey, later);
    ghost var j :| j in mid && VerifyPending(mid[j], email, later) && st.users == mid[j := mid[j].(verify := None)];
    assert j == userId;
  }
}

=== FILE: statuses.dfy ===
/** The root-only status routes (server/modules/status/admin/routes.js): create, get,
    rename and delete the statuses an account's status log refers to. */
module Statuses {
  import opened Wrappers
  import opened Documents
  import opened Preware
  import opened Db

  /** POST /statuses: one new status built from (pivot, name), under the id the model derives
      from them. */
  method CreateStatus(st: Store, creds: Credentials, pivot: string, name: string, id: Id) returns (r: Result<Status>)
    requires id !in st.statuses
    modifies st`statuses
    ensures RequireRoot(creds).Stop? ==> r == Err(Forbidden(MissingGroup)) && st.statuses == old(st.statuses)
    ensures RequireRoot(creds).Continue? ==>
              r == Ok(Status(pivot, name)) && st.statuses == old(st.statuses)[id := Status(pivot, name)]
  {
    var gate := RequireRoot(creds);
    if gate.Stop? {
      return Err(gate.error);
    }
    st.statuses := st.statuses[id := Status(pivot, name)];
    r := Ok(Status(pivot, name));
  }

  /** GET /statuses/{id}; nothing changes. */
  method GetStatus(st: Store, creds: Credentials, id: string) returns (r: Result<Status>)
    ensures RequireRoot(creds).Stop? ==> r == Err(Forbidden(MissingGroup))
    ensures RequireRoot(creds).Continue? && id !in st.statuses ==> r == Err(NotFound(StatusNotFound))
    ensures RequireRoot(creds).Continue? && id in st.statuses ==> r == Ok(st.statuses[id])
  {
    var gate := RequireRoot(creds);
    if gate.Stop? {
      return Err(gate.error);
    }
    if id !in st.statuses {
      return Err(NotFound(StatusNotFound));
    }
    r := Ok(st.statuses[id]);
  }

  /** PUT /statuses/{id}: only the name changes; the pivot and the id stay. */
  method RenameStatus(st: Store, creds: Credentials, id: string, name: string) returns (r: Result<Status>)
    modifies st`statuses
    ensures RequireRoot(creds).Stop? ==> r == Err(Forbidden(MissingGroup))
    ensures RequireRoot(creds).Continue? && id !in old(st.statuses) ==> r == Err(NotFound(StatusNotFound))
    ensures r.Err? ==> st.statuses == old(st.statuses)
    ensures RequireRoot(creds).Continue? && id in old(st.statuses) ==>
              r == Ok(Status(old(st.statuses)[id].pivot, name))
              && st.statuses == old(st.statuses)[id := Status(old(st.statuses)[id].pivot, name)]
  {
    var gate := RequireRoot(creds);
    if gate.Stop? {
      return Err(gate.error);
    }
    if id !in st.statuses {
      return Err(NotFound(StatusNotFound));
    }
    var s := st.statuses[id].(name := name);
    st.statuses := st.statuses[id := s];
    r := Ok(s);
  }

  /** DELETE /statuses/{id}: exactly that status goes; a miss changes nothing. */
  method DeleteStatus(st: Store, creds: Credentials, id: string) returns (r: Result<string>)
    modifies st`statuses
    ensures RequireRoot(creds).Stop? ==> r == Err(Forbidden(MissingGroup)) && st.statuses == old(st.statuses)
    ensures RequireRoot(creds).Continue? && id !in old(st.statuses) ==>
              r == Err(NotFound(StatusNotFound)) && st.statuses == old(st.statuses)
    ensures RequireRoot(creds).Continue? && id in old(st.statuses) ==>
              r == Ok(Success) && st.statuses == old(st.statuses) - {id}
  {
    var gate := RequireRoot(creds);
    if gate.Stop? {
      return Err(gate.error);
    }
    if id !in st.statuses {
      return Err(NotFound(StatusNotFound));
    }
    st.statuses := st.statuses - {id};
    r := Ok(Success);
  }
}

=== FILE: user_admin.dfy ===
/** The root-only user routes (server/modules/user/admin/routes.js): create, get, update,
    delete and set a password. Request validation refuses the root user's id on update,
    delete and password before any guard runs. */
module UserAdmin {
  import opened Wrappers
  import opened Crypto
  import opened Documents
  import opened Links
  import opened Preware
  import opened Db

  /** POST /users: the username check, then the e-mail check, then one new user. */
  method CreateUser(st: Store, creds: Credentials, username: string, password: string, email: string, id: Id)
    returns (r: Result<User>)
    requires id !in st.users
    modifies st`users
    ensures RequireRoot(creds).Stop? ==> r == Err(Forbidden(MissingGroup))
    ensures RequireRoot(creds).Continue? && IdentityConflict(old(st.users), username, email, None).Some? ==>
              r == Err(IdentityConflict(old(st.users), username, email, None).value)
    ensures r.Err? ==> st.users == old(st.users)
    ensures RequireRoot(creds).Continue? && IdentityConflict(old(st.users), username, email, None).None? ==>
              r == Ok(NewUser(username, password, email, None))
              && st.users == old(st.users)[id := NewUser(username, password, email, None)]
    ensures UniqueLogins(old(st.users)) ==> UniqueLogins(st.users)
    ensures old(st.Linked()) ==> st.Linked()
  {
    var gate := RequireRoot(creds);
    if gate.Stop? {
      return Err(gate.error);
    }
    var conflict := IdentityConflict(st.users, username, email, None);
    if conflict.Some? {
      return Err(conflict.value);
    }
    var user := NewUser(username, password, email, None);
    if UniqueLogins(st.users) {
      NoConflictKeepsUnique(st.users, id, None, user);
    }
    if old(st.Linked()) {
      AddUnlinkedUser(st.users, AccountUsers(st.accounts), AccountKey, id, user);
      AddUnlinkedUser(st.users, AdminUsers(st.admins), AdminKey, id, user);
    }
    st.users := st.users[id := user];
    r := Ok(user);
  }

  /** GET /users/{id}. */
  method GetUser(st: Store, creds: Credentials, id: string) returns (r: Result<User>)
    ensures RequireRoot(creds).Stop? ==> r == Err(Forbidden(MissingGroup))
    ensures RequireRoot(creds).Continue? && id !in st.users ==> r == Err(NotFound(UserNotFound))
    ensures RequireRoot(creds).Continue? && id in st.users ==> r == Ok(st.users[id])
  {
    var gate := RequireRoot(creds);
    if gate.Stop? {
      return Err(gate.error);
    }
    if id !in st.users {
      return Err(NotFound(UserNotFound));
    }
    r := Ok(st.users[id]);
  }

  /** PUT /users/{id}: the uniqueness checks (the user's own values allowed) run before the
      user is looked up, so a conflicting payload for a missing id is 409. Both checks turn
      the id into an ObjectId first, so an id `ObjectID` rejects ends in a 500. A success sets
      isActive, username and e-mail, copies the username into the linked roles and revokes
      the user's sessions. */
  method UpdateUser(st: Store, creds: Credentials, id: Id, isActive: bool, username: string, email: string)
    returns (r: Result<User>)
    modifies st`users, st`accounts, st`admins, st`sessions
    ensures id == RootUserId ==> r == Err(BadRequest(InvalidId))
    ensures id != RootUserId && RequireRoot(creds).Stop? ==> r == Err(Forbidden(MissingGroup))
    ensures id != RootUserId && RequireRoot(creds).Continue? && !ObjectIdText(id) ==> r == Err(InternalError(ServerError))
    ensures (id != RootUserId && RequireRoot(creds).Continue? && ObjectIdText(id)
             && IdentityConflict(old(st.users), username, email, Some(id)).Some?) ==>
              r == Err(IdentityConflict(old(st.users), username, email, Some(id)).value)
    ensures (id != RootUserId && RequireRoot(creds).Continue? && ObjectIdText(id)
             && IdentityConflict(old(st.users), username, email, Some(id)).None?
             && id !in old(st.users)) ==> r == Err(NotFound(UserNotFound))
    ensures r.Err? ==> st.users == old(st.users) && st.accounts == old(st.accounts)
                       && st.admins == old(st.admins) && st.sessions == old(st.sessions)
    ensures r.Ok? ==>
              && id in old(st.users) && ObjectIdText(id)
              && IdentityConflict(old(st.users), username, email, Some(id)).None?
              && st.users == old(st.users)[id := WithIdentity(old(st.users)[id], username, email, Some(isActive))]
              && st.sessions == WithoutUserSessions(old(st.sessions), id)
              && r == Ok(st.users[id])
    ensures (id != RootUserId && RequireRoot(creds).Continue? && ObjectIdText(id)
             && IdentityConflict(old(st.users), username, email, Some(id)).None?
             && id in old(st.users)) ==> r.Ok?
    ensures r.Ok? ==> AccountRenamed(old(st.accounts), st.accounts, id, username)
                      && AdminRenamed(old(st.admins), st.admins, id, username)
    ensures UniqueLogins(old(st.users)) ==> UniqueLogins(st.users)
    ensures old(st.Linked()) ==> st.Linked()
  {
    if id == RootUserId {
      return Err(BadRequest(InvalidId));
    }
    var gate := RequireRoot(creds);
    if gate.Stop? {
      return Err(gate.error);
    }
    if !ObjectIdText(id) {
      return Err(InternalError(ServerError));
    }
    var conflict := IdentityConflict(st.users, username, email, Some(id));
    if conflict.Some? {
      return Err(conflict.value);
    }
    if id !in st.users {
      return Err(NotFound(UserNotFound));
    }
    if UniqueLogins(st.users) {
      NoConflictKeepsUnique(st.users, id, Some(id), WithIdentity(st.users[id], username, email, Some(isActive)));
    }
    st.SetIdentity(id, username, email, Some(isActive));
    st.DeleteUserSessions(id);
    r := Ok(st.users[id]);
  }

  /** DELETE /users/{id}: the user and all its sessions go; the roles linked to it are not
      touched, and keep pointing at the deleted user. */
  method DeleteUser(st: Store, creds: Credentials, id: string) returns (r: Result<string>)
    modifies st`users, st`sessions
    ensures id == RootUserId ==> r == Err(BadRequest(InvalidId))
    ensures id != RootUserId && RequireRoot(creds).Stop? ==> r == Err(Forbidden(MissingGroup))
    ensures id != RootUserId && RequireRoot(creds).Continue? && id !in old(st.users) ==> r == Err(NotFound(UserNotFound))
    ensures r.Err? ==> st.users == old(st.users) && st.sessions == old(st.sessions)
    ensures id != RootUserId && RequireRoot(creds).Continue? && id in old(st.users) ==>
              r == Ok(Success) && st.users == old(st.users) - {id}
              && st.sessions == WithoutUserSessions(old(st.sessions), id)
  {
    if id == RootUserId {
      return Err(BadRequest(InvalidId));
    }
    var gate := RequireRoot(creds);
    if gate.Stop? {
      return Err(gate.error);
    }
    if id !in st.users {
      return Err(NotFound(UserNotFound));
    }
    st.users := st.users - {id};
    st.sessions := WithoutUserSessions(st.sessions, id);
    r := Ok(Success);
  }

  /** Deleting a linked user leaves its role pointing at a user that no longer exists: in
      any store whose links agree, removing a user other than root (the only one
      `DELETE /users/{id}` refuses) that holds a link of kind `key` breaks that kind. */
  lemma {:induction false} DeleteBreaksLinks(users: map<Id, User>, roleUsers: RoleUsers, key: string, u: Id)
    requires u != RootUserId && u in users && key in users[u].roles
    requires LinkedBothWays(users, roleUsers, key)
    ensures !LinkedBothWays(users - {u}, roleUsers, key)
  {
    var r := users[u].roles[key].id;
    assert r in roleUsers && roleUsers[r].Some? && roleUsers[r].value.id == u;
  }

  /** PUT /users/{id}/password: only the stored hash changes. */
  method SetPassword(st: Store, creds: Credentials, id: string, password: string) returns (r: Result<User>)
    modifies st`users
    ensures id == RootUserId ==> r == Err(BadRequest(InvalidId))
    ensures id != RootUserId && RequireRoot(creds).Stop? ==> r == Err(Forbidden(MissingGroup))
    ensures id != RootUserId && RequireRoot(creds).Continue? && id !in old(st.users) ==> r == Err(NotFound(UserNotFound))
    ensures r.Err? ==> st.users == old(st.users)
    ensures id != RootUserId && RequireRoot(creds).Continue? && id in old(st.users) ==>
              st.users == old(st.users)[id := old(st.users)[id].(password := Hash(password))]
              && r == Ok(st.users[id])
    ensures r.Ok? ==> Matches(password, st.users[id].password)
    ensures old(st.Linked()) ==> st.Linked()
  {
    if id == RootUserId {
      return Err(BadRequest(InvalidId));
    }
    var gate := RequireRoot(creds);
    if gate.Stop? {
      return Err(gate.error);
    }
    if id !in st.users {
      return Err(NotFound(UserNotFound));
    }
    var user := st.users[id].(password := Hash(password));
    if old(st.Linked()) {
      SameSlotPreserves(st.users, AccountUsers(st.accounts), AccountKey, id, user);
      SameSlotPreserves(st.users, AdminUsers(st.admins), AdminKey, id, user);
    }
    st.users := st.users[id := user];
    r := Ok(user);
  }
}

=== FILE: users.dfy ===
/** The caller's own user document (server/modules/user/routes.js): read it, change the
    username and e-mail, change the password. The root user may do neither change. */
module Users {
  import opened Wrappers
  import opened Crypto
  import opened Documents
  import opened Preware
  import opened Db

  /** The fields `/users/my` returns. */
  datatype Profile = Profile(username: string, email: string, roles: Roles)

  /** The fields `/users/my/password` returns. */
  datatype Contact = Contact(username: string, email: string)

  /** GET /users/my: the caller's username, e-mail and roles (nothing, when the document is
      gone); nothing changes. */
  method MyProfile(st: Store, creds: Credentials) returns (r: Option<Profile>)
    ensures creds.user.id !in st.users ==> r.None?
    ensures creds.user.id in st.users ==>
              var u := st.users[creds.user.id];
              r == Some(Profile(u.username, u.email, u.roles))
  {
    var id := creds.user.id;
    if id !in st.users {
      return None;
    }
    r := Some(Profile(st.users[id].username, st.users[id].email, st.users[id].roles));
  }

  /** PUT /users/my: refused for the root user; then the uniqueness checks; then the username
      and e-mail are written and the new username is copied into the linked roles. No
      session is revoked, and a caller whose document is gone gets no error: the roles are
      still renamed. The checks exclude `_id: {$ne: credentials.user._id}`, but the
      credentials come from a decoded token, where that id is text, and text never equals a
      stored ObjectId: the checks exclude nobody, the caller included. */
  method UpdateMy(st: Store, creds: Credentials, username: string, email: string) returns (r: Result<Option<Profile>>)
    modifies st`users, st`accounts, st`admins
    ensures creds.user.username == RootUsername ==> r == Err(Forbidden(RootRefused))
    ensures creds.user.username != RootUsername && IdentityConflict(old(st.users), username, email, None).Some? ==>
              r == Err(IdentityConflict(old(st.users), username, email, None).value)
    ensures r.Err? ==> st.users == old(st.users) && st.accounts == old(st.accounts) && st.admins == old(st.admins)
    ensures (creds.user.username != RootUsername
             && IdentityConflict(old(st.users), username, email, None).None?) ==> r.Ok?
    ensures r.Ok? ==>
              var id := creds.user.id;
              && (st.users == if id in old(st.users) then old(st.users)[id := WithIdentity(old(st.users)[id], username, email, None)]
                              else old(st.users))
              && AccountRenamed(old(st.accounts), st.accounts, id, username)
              && AdminRenamed(old(st.admins), st.admins, id, username)
              && r.value == (if id in st.users then Some(Profile(username, email, st.users[id].roles)) else None)
    ensures UniqueLogins(old(st.users)) ==> UniqueLogins(st.users)
    ensures old(st.Linked()) ==> st.Linked()
  {
    var gate := RequireNotRootUser(creds);
    if gate.Stop? {
      return Err(gate.error);
    }
    var id := creds.user.id;
    var conflict := IdentityConflict(st.users, username, email, None);
    if conflict.Some? {
      return Err(conflict.value);
    }
    if UniqueLogins(st.users) && id in st.users {
      NoConflictKeepsUnique(st.users, id, None, WithIdentity(st.users[id], username, email, None));
    }
    st.SetIdentity(id, username, email, None);
    r := Ok(if id in st.users then Some(Profile(username, email, st.users[id].roles)) else None);
  }

  /** So a caller who resubmits their current username, to change only the e-mail, is
      refused with 409 'Username already in use.', and one who keeps only the e-mail with
      'Email already in use.'. */
  lemma {:induction false} ResubmittedOwnValuesRefused(users: map<Id, User>, id: Id, username: string, email: string)
    requires id in users
    ensures users[id].username == username ==> IdentityConflict(users, username, email, None) == Some(Conflict(UsernameInUse))
    ensures users[id].email == email && !UsernameTaken(users, username, None) ==>
              IdentityConflict(users, username, email, None) == Some(Conflict(EmailInUse))
  {
    if users[id].username == username {
      assert UsernameTaken(users, username, None);
    }
    if users[id].email == email {
      assert EmailTaken(users, email, None);
    }
  }

  /** PUT /users/my/password: refused for the root user; otherwise only the caller's stored
      hash changes. */
  method ChangeMyPassword(st: Store, creds: Credentials, password: string) returns (r: Result<Option<Contact>>)
    modifies st`users
    ensures creds.user.username == RootUsername ==> r == Err(Forbidden(RootRefused)) && st.users == old(st.users)
    ensures creds.user.username != RootUsername && creds.user.id !in old(st.users) ==>
              r == Ok(None) && st.users == old(st.users)
    ensures creds.user.username != RootUsername && creds.user.id in old(st.users) ==>
              var id := creds.user.id;
              && st.users == old(st.users)[id := old(st.users)[id].(password := Hash(password))]
              && Matches(password, st.users[id].password)
              && r == Ok(Some(Contact(st.users[id].username, st.users[id].email)))
    ensures old(st.Linked()) ==> st.Linked()
  {
    var gate := RequireNotRootUser(creds);
    if gate.Stop? {
      return Err(gate.error);
    }
    var id := creds.user.id;
    if id !in st.users {
      return Ok(None);
    }
    var user := st.users[id].(password := Hash(password));
    if old(st.Linked()) {
      Links.SameSlotPreserves(st.users, Links.AccountUsers(st.accounts), AccountKey, id, user);
      Links.SameSlotPreserves(st.users, Links.AdminUsers(st.admins), AdminKey, id, user);
    }
    st.users := st.users[id := user];
    r := Ok(Some(Contact(user.username, user.email)));
  }
}

=== FILE: wrappers.dfy ===
/** Option and Result, and the HTTP errors (the `Boom` kinds) the route handlers raise. */
module Wrappers {

  datatype Option<+T> = None | Some(value: T)

  /** The error kinds the handlers throw; each carries the message the client sees. */
  datatype Error =
    | NotFound(message: string)
    | Conflict(message: string)
    | BadRequest(message: string)
    | Forbidden(message: string)
    | InternalError(message: string)

  /** The outcome of one request: a reply value or an error. */
  datatype Result<+T> = Ok(value: T) | Err(error: Error)

  /** The body of every reply that only acknowledges. */
  const Success := "Success."

  /** Message of the 400 that hapi's default validation failure reply gives when a path
      parameter, here a reserved id, fails its schema. */
  const InvalidId := "Invalid request params input"

  /** Message of the 500 that hapi gives when a handler throws an error that is not a
      `Boom` error. */
  const ServerError := "An internal server error occurred"

  /** Message of the 400 that the reset and verification flows raise for a wrong or
      expired key. */
  const InvalidEmailOrKey := "Invalid email or key."
}
